=== FILE: README.md ===
# Assistant manager — a Dafny model of its core

This project models the logic core of a small web application that manages
AI-assistant profiles. Each profile has a name, a language, a tone, a split of
short/medium/long responses in percent, an audio flag and training rules. The
core has six parts:

- **Repository.** An in-memory assistant service holding an array of
  records. It offers `getAll`, `getById`, `create`, `update`, `delete` and
  `updateRules`; `delete` fails at random.
- **Seed data.** The three records the store starts with, and the canned chat
  replies per language.
- **Mutation hooks.** Each hook wraps a repository mutation with cache work.
  Edits and deletes are applied to the cached list first (optimistic update),
  rolled back on error, and the cache is refetched at the end.
- **UI store.** The selected assistant, the create/edit modal and its step,
  per-assistant chat histories, and the pending delete confirmation.
- **Slider allocator.** The create/edit form's response-length sliders keep
  the three percentages summing to 100.
- **Form.** The step-1 check and the save guard of the create/edit form.

Modules follow the source files:

- `Types`: `types/assistant.ts`.
- `Lists`: the by-id array operations that the repository and the cache
  share.
- `SeedData`: `lib/mock-data.ts`.
- `Repository`: `lib/mock-services.ts`.
- `UiStore`: `store/assistant-store.ts`.
- `Coordinator`: `hooks/use-assistants.ts`.
- `Allocator` and `AssistantModal`: `components/assistant-modal.tsx`.

How the model represents things:

- The store is a value (`seq<Assistant>`). Each repository operation returns
  the new store together with its reply. A thrown error is `Err` carrying the
  source's message.
- Nondeterminism becomes parameters:
  - `freshId` is the clock reading `create` uses as the new id;
  - `shouldFail` is the outcome of the 10% failure draw in `delete`;
  - `rand` in [0, 1) stands for `Math.random()` when a canned reply is picked.
- The query cache keeps only its data: the list query and the per-id detail
  queries. Invalidating is an immediate refetch of every cached query under
  the key.
- The allocator computes over exact reals. `Math.round(x)` is
  `Floor(x + 0.5)`, which rounds halves towards positive infinity as
  JavaScript does.
- Ids are not assumed unique; nothing in the code keeps them unique. The
  lemmas that need uniqueness take it as a hypothesis. `Coordinator.DuplicateIdsBreakPrediction`
  shows what goes wrong without it.
- `AssistantModal.PlanSave`, `FormPatch`, `FormFields` and `SaveForm` require
  the form's language and tone to be set. Saving happens on step 2, and step
  2 is reached only through `handleNextStep`, which demands a valid step 1.
  `AssistantModal.StepsKeepConsistency` proves that this step-2 invariant
  holds.

## Model

| member | source | states |
|---|---|---|
| Types.LanguageName | types/assistant.ts:10 | each language has a non-empty wire name |
| Types.LanguageNameInjective | types/assistant.ts:10 | two languages share a wire name exactly when they are the same language, so the names can key the canned replies |
| Types.WithId | lib/mock-services.ts:32-35 | the created record carries the supplied id and every field of the payload |
| Types.Merge | lib/mock-services.ts:47 | a present patch field overwrites the record's field, an absent one keeps it |
| Types.MergeLaws | lib/mock-services.ts:47 | merging an empty patch changes nothing; merging the same patch twice equals merging it once |
| Lists.FindIndex | lib/mock-services.ts:43-46 | -1 exactly when no record has the id; otherwise the position of the first record with it |
| Lists.RemoveId | lib/mock-services.ts:57 | the survivors are exactly the records whose id differs, and there are no more of them than before |
| Lists.RemoveIdAppend | lib/mock-services.ts:57 | filtering distributes over concatenation, so kept records keep their relative order |
| Lists.RemoveAbsentId | lib/mock-services.ts:57 | filtering out an id no record has returns the array unchanged |
| Lists.RemoveIdIdempotent | lib/mock-services.ts:57 | deleting the same id a second time changes nothing |
| Lists.MergeWhereId | hooks/use-assistants.ts:55-57 | same length; every record with the id is merged with the patch and every other record is kept |
| Lists.ReplaceWhereId | hooks/use-assistants.ts:110-112 | same length; every record with the returned id becomes the returned record, the others are kept |
| SeedData.InitialAssistants | lib/mock-data.ts:3-46 | three records with ids "1", "2", "3", pairwise distinct ids, names of at least three characters, splits that sum to 100 |
| SeedData.SimulatedResponses | lib/mock-data.ts:48-67 | exactly three keys, the wire names of the three languages, each with four replies |
| SeedData.DrawIndex | lib/mock-data.ts:76 | `floor(rand * n)` is a valid index for every draw in [0, 1) |
| SeedData.GetRandomResponse | lib/mock-data.ts:69-77 | an unknown language or an empty list gives "..."; otherwise the reply is one of that language's replies |
| SeedData.EveryReplyReachable | lib/mock-data.ts:76 | every reply of every language comes out for some draw |
| SeedData.KnownLanguageNeverFallsBack | lib/mock-data.ts:69-77 | the fallback "..." never shows for a language an assistant can have |
| Repository.InitialStore | lib/mock-services.ts:5 | the store starts as the three seed records, well formed with unique ids |
| Repository.GetAll | lib/mock-services.ts:18-21 | returns the whole store in order |
| Repository.GetById | lib/mock-services.ts:24-27 | null exactly when no record has the id; otherwise the first record with it |
| Repository.Create | lib/mock-services.ts:30-38 | appends one record with the supplied id, keeps every earlier record, and returns the appended record |
| Repository.Update | lib/mock-services.ts:41-49 | a missing id throws "Asistente no encontrado" and leaves the store alone; otherwise only the first record with the id is merged, and the merged record is returned |
| Repository.Delete | lib/mock-services.ts:52-58 | a failing draw throws the retry message and leaves the store alone; otherwise no record with the id remains and every other record survives |
| Repository.UpdateRules | lib/mock-services.ts:61-69 | a missing id throws "Asistente no encontrado"; otherwise only the rules of the first record with the id change |
| Repository.UpdateRulesIsRulesPatch | lib/mock-services.ts:41-69 | `updateRules` behaves exactly like `update` with a patch that holds only the rules |
| Repository.CreatePreservesInvariants | lib/mock-services.ts:30-38 | a well-formed payload keeps the store well formed; a new id keeps ids unique |
| Repository.CreateWithTakenIdDuplicates | lib/mock-services.ts:34 | a repeated clock value makes two records share an id |
| Repository.UpdatePreservesInvariants | lib/mock-services.ts:41-49 | a patch with a valid name and split keeps the store well formed; a patch without an id keeps ids unique |
| Repository.DeletePreservesInvariants | lib/mock-services.ts:52-58 | deletion keeps the store well formed and keeps unique ids unique |
| Repository.RemoveIdKeepsUnique | lib/mock-services.ts:57 | filtering a store with unique ids leaves unique ids |
| Repository.UpdateRulesPreservesInvariants | lib/mock-services.ts:61-69 | a rules update keeps the store well formed and keeps unique ids unique |
| UiStore.Initial | store/assistant-store.ts:31-72 | nothing selected, modal closed in create mode at step 1, no histories, no delete target |
| UiStore.SetSelectedAssistant | store/assistant-store.ts:32 | sets the selection and nothing else |
| UiStore.OpenModal | store/assistant-store.ts:38-44 | opens in the given mode at step 1 with the given assistant selected, or none; histories and delete target are kept |
| UiStore.CloseModal | store/assistant-store.ts:45-50 | closes, returns to step 1 and clears the selection; the mode, histories and delete target are kept |
| UiStore.SetModalStep | store/assistant-store.ts:51 | sets the step and nothing else |
| UiStore.AddChatMessage | store/assistant-store.ts:55-61 | appends the message to that assistant's history (empty if absent); every other history and all other state is kept |
| UiStore.ClearChatHistory | store/assistant-store.ts:62-68 | that assistant's history becomes empty and its key stays; every other history is kept |
| UiStore.SetAssistantToDelete | store/assistant-store.ts:72 | sets the delete target and nothing else |
| UiStore.CloseModalLaws | store/assistant-store.ts:38-50 | closing twice is closing once; opening then closing leaves only the chosen mode behind |
| UiStore.AddAllAppends | store/assistant-store.ts:55-61 | a run of messages appends them in order to the history |
| UiStore.ClearForgetsHistory | store/assistant-store.ts:55-68 | clearing after any run of messages equals clearing at once; a message after a clear is the whole history |
| UiStore.AddAllFrame | store/assistant-store.ts:55-61 | a run of messages touches only that assistant's history |
| UiStore.AddChatMessageCommutes | store/assistant-store.ts:55-61 | appends to two different assistants commute |
| Coordinator.OptimisticUpdate | hooks/use-assistants.ts:55-57 | an undefined list stays undefined; otherwise every record with the id is merged and the others are kept |
| Coordinator.OptimisticDelete | hooks/use-assistants.ts:86 | an undefined list stays undefined; otherwise exactly the records with another id remain |
| Coordinator.ReplaceReturned | hooks/use-assistants.ts:110-112 | every namesake of the returned record is replaced by it |
| Coordinator.Rollback | hooks/use-assistants.ts:61-66 | a snapshot, when there is one, replaces the list; otherwise the list stays |
| Coordinator.InvalidateAll | hooks/use-assistants.ts:68 | a cached list becomes the store and every cached detail becomes what `getById` returns; nothing new is cached |
| Coordinator.InvalidateDetail | hooks/use-assistants.ts:113 | only that id's detail query is refetched; the list and the other details are kept |
| Coordinator.BeginUpdate | hooks/use-assistants.ts:47-60 | snapshots the list and applies the optimistic merge; nothing else changes |
| Coordinator.FailMutation | hooks/use-assistants.ts:61-66 | restores the snapshot into the list; details and UI are kept |
| Coordinator.SettleUpdate | hooks/use-assistants.ts:67-70 | refetches and closes the modal: closed, back at step 1, nothing selected, mode kept; histories and delete target are kept |
| Coordinator.RunUpdate | hooks/use-assistants.ts:41-72 | the store and reply are the repository's; the call fails exactly for a missing id; the cache is refetched from the new store and the modal closes |
| Coordinator.FailedUpdateRestoresSnapshot | hooks/use-assistants.ts:47-66 | a failed edit leaves the client exactly as before the optimistic step |
| Coordinator.OptimisticUpdatePredictsRepository | hooks/use-assistants.ts:55-57 | with unique ids and an existing id, the optimistic list equals the repository's result |
| Coordinator.DuplicateIdsBreakPrediction | hooks/use-assistants.ts:55-57 | with two records sharing an id, the optimistic list patches both and the repository only the first |
| Coordinator.UpdateOfVanishedId | hooks/use-assistants.ts:41-72 | editing a missing id rolls the list back, leaves the store alone and ends with the list showing the store |
| Coordinator.BeginDelete | hooks/use-assistants.ts:81-89 | snapshots the list and applies the optimistic filter; nothing else changes |
| Coordinator.SettleDelete | hooks/use-assistants.ts:96-99 | refetches and clears the delete target; all other UI is kept |
| Coordinator.RunDelete | hooks/use-assistants.ts:75-101 | the store and the reply are the repository's; the call fails exactly on a failing draw; the cache is refetched and the delete target cleared |
| Coordinator.FailedDeleteRestoresSnapshot | hooks/use-assistants.ts:81-95 | a failed delete leaves the client exactly as before the optimistic step |
| Coordinator.OptimisticDeletePredictsRepository | hooks/use-assistants.ts:86 | the optimistic filter equals a successful repository delete |
| Coordinator.DeleteOutcomeAfterResync | hooks/use-assistants.ts:75-101 | after settling, a failed delete still lists the record and a successful one lists no record with its id |
| Coordinator.RunCreate | hooks/use-assistants.ts:27-38 | appends the record with the clock id, returns it, refetches the cache and closes the modal |
| Coordinator.RunUpdateRules | hooks/use-assistants.ts:104-116 | the reply is the repository's; a missing id changes nothing; otherwise the returned record replaces its namesakes in the list, its own detail query (if cached) is refetched from the new store, and every other detail is kept |
| Coordinator.UpdateRulesKeepsListInSync | hooks/use-assistants.ts:109-113 | a list in sync with a store of unique ids stays in sync without a list refetch |
| Allocator.Correct | components/assistant-modal.tsx:133-144 | the moved slider is untouched; a sum of 100 is kept; if some other slider can take the gap the sum becomes 100, else nothing changes; values in range stay in range |
| Allocator.CorrectPicksFirstAbsorber | components/assistant-modal.tsx:133-144 | at most one slider changes; the second other slider changes only when the first cannot take the gap |
| Allocator.HandleSliderChange | components/assistant-modal.tsx:104-151 | the moved slider lands exactly on the requested value |
| Allocator.RedistributeGrow | components/assistant-modal.tsx:116-122 | on growth each other slider loses exactly its rounded proportional share, so the clamp at 0 never fires |
| Allocator.RedistributeShrink | components/assistant-modal.tsx:123-128 | on shrink each other slider gains exactly half the difference, so the clamp at 100 never fires |
| Allocator.SharePair | components/assistant-modal.tsx:116-122 | the two rounded shares never exceed the sliders they come from and together cover the difference or one more |
| Allocator.NoChangeIsIdentity | components/assistant-modal.tsx:104-151 | leaving a slider at its value returns the valid split unchanged, in both handlers |
| Allocator.GrowKeepsTotal | components/assistant-modal.tsx:116-150 | growth from a valid split stays valid; the second other slider loses its rounded share, the first covers the rest, and neither grows |
| Allocator.EvenShrinkKeepsTotal | components/assistant-modal.tsx:123-150 | an even shrink stays valid and gives each other slider half the difference |
| Allocator.OddShrinkOverflows | components/assistant-modal.tsx:123-150 | an odd shrink stores a split that sums to 101, each other slider rounded up from a half |
| Allocator.AsWrittenValidIff | components/assistant-modal.tsx:104-151 | from a valid split and an in-range value, the stored split is valid exactly when the move is not an odd shrink |
| Allocator.HandTraces | components/assistant-modal.tsx:104-151 | 30/40/30 with short set to 50, 10 and 29 gives 50/29/21, 10/50/40 and 29/41/31 |
| Allocator.SeedShrinkExample | components/assistant-modal.tsx:104-151 | the first seed split 30/50/20 with short set to 29 stores 29/51/21; the corrected handler stores 29/50/21 |
| Allocator.BalancedSliderChange | components/assistant-modal.tsx:104-151 | the moved slider lands exactly on the requested value |
| Allocator.BalancedAgreesOutsideOddShrink | components/assistant-modal.tsx:104-151 | outside an odd shrink the corrected handler equals the one as written |
| Allocator.BalancedOddShrink | components/assistant-modal.tsx:123-150 | after an odd shrink the corrected handler stores a valid split, the first other slider getting the lower half and the second the upper |
| Allocator.BalancedKeepsTotal | components/assistant-modal.tsx:104-151 | every in-range move keeps a valid split valid, and the other sliders move against the moved one |
| AssistantModal.DefaultForm | components/assistant-modal.tsx:55-61 | an empty name, Spanish, professional tone, audio off and a split that sums to 100 |
| AssistantModal.FromAssistant | components/assistant-modal.tsx:79-86 | an edit loads the assistant's name, language, tone, split and audio flag |
| AssistantModal.BlankForm | components/assistant-modal.tsx:88-94 | a creation starts with no name, language or tone and a split that sums to 100 |
| AssistantModal.ResetForm | components/assistant-modal.tsx:77-97 | a closed modal keeps the form; an edit with a selection loads it; anything else loads the blank form |
| AssistantModal.HandleNextStep | components/assistant-modal.tsx:153-161 | step 2 is reached exactly when the name has at least three characters and a language and a tone are chosen; nothing else changes |
| AssistantModal.HandlePrevStep | components/assistant-modal.tsx:163-165 | back to step 1, nothing else changes |
| AssistantModal.SetSlider | components/assistant-modal.tsx:104-151 | every slider runs the handler as written: the moved slider takes the value, nothing but the split changes, and from a saveable in-range form saving stays enabled exactly when the move is not a shrink by an odd amount |
| AssistantModal.SetSliderBalanced | components/assistant-modal.tsx:104-151 | the corrected slider: the moved slider takes the value, nothing but the split changes, and an in-range move from a saveable in-range form keeps it saveable with sliders in range |
| AssistantModal.FormPatch | components/assistant-modal.tsx:182-192 | merging the edit patch overwrites name, language, tone, split and audio flag, and never the id or the rules |
| AssistantModal.FormFields | components/assistant-modal.tsx:196-204 | the created record holds the form's fields and empty rules |
| AssistantModal.PlanSave | components/assistant-modal.tsx:167-207 | no request exactly when the split does not sum to 100; an edit exactly in edit mode with a selection, aimed at its id; a creation otherwise |
| AssistantModal.SaveForm | components/assistant-modal.tsx:167-215 | an invalid split changes nothing; otherwise the modal ends closed, an edit updates the repository and fails exactly for a missing id, and a creation appends the record |
| AssistantModal.ResetLaws | components/assistant-modal.tsx:55-94 | a blank form fails step 1 but has a saveable split; a form loaded from a well-formed assistant passes step 1 and is saveable |
| AssistantModal.StepsKeepConsistency | components/assistant-modal.tsx:153-165 | opening starts at step 1, and the step buttons keep the modal on step 2 only with a form that passed step 1 |
| AssistantModal.SliderSaveEnabledIff | components/assistant-modal.tsx:100-151 | with the slider as written, saving stays enabled after an in-range move exactly when the move is not a shrink by an odd amount |
| AssistantModal.SliderKeepsSaveEnabled | components/assistant-modal.tsx:100-151 | with the corrected slider, an in-range move never disables saving |
| AssistantModal.OddShrinkBlocksSave | components/assistant-modal.tsx:100-171 | after an odd shrink the handler as written makes the save refuse without a request; the corrected one lets it through |
| AssistantModal.SaveKeepsStoreWellFormed | components/assistant-modal.tsx:168-207 | a save from a step-1-valid form with sliders in range keeps every stored record well formed |
| AssistantModal.SaveIsVisible | components/assistant-modal.tsx:167-215 | after a save the cached list shows the store; the edited or created record is what a lookup by its id returns |

## Left out

- Rendering: the JSX, the presentational components, toasts and icons are left out. They hold no state that the core reads.
- Timing: the simulated latency of every service call is not modelled, nor are the chat simulator's typing timers. Every request lifecycle is one atomic step, so two mutations never interleave.
- Cache library: the query cache's own bookkeeping (staleness, retries, cancellation, the `isPending` flags) is not modelled. Only the data it holds is, and invalidation is an immediate refetch.
- Arithmetic: JavaScript numbers are IEEE doubles, while the allocator here computes over exact reals. A proportion such as 20 * (30 / 70) may differ in the last bit, and a `Math.round` exactly at a half could then differ too.
- Aliasing: `updateRules` mutates the very object that `getAll` copies and the cached list holds. The model uses value semantics, so a stale cached list is never mutated behind the cache's back.
- Replies table: the canned replies are a record indexed by any string. Inherited keys such as "constructor" are not modelled; such a key counts as absent and gives the fallback.
- Patch keys: a patch key that is present but holds `undefined` overwrites a field in a spread. Patches here are either present with a value or absent.
- Step-1 timing: the step-1 flag is kept by an effect, so it can lag one render behind the form. The model computes it from the current form.
- Clock: the clock value that becomes a created record's id is a parameter, and its string form is not modelled.
- AssistantModal.PlanSave: it and `AssistantModal.SaveForm` require language and tone to be set. The form can hold them unset only before step 1 passes, and saving happens on step 2.
- AssistantModal.HandleNextStep: the name's length is counted in Unicode code points, as Dafny strings are sequences of characters. JavaScript's `name.length` and the form's `minLength: 3` count UTF-16 code units. A name with characters outside the Basic Multilingual Plane can therefore reach three units in JavaScript while having fewer than three characters here: "😀a" passes step 1 in the program and fails it in the model. The same count is used by `SeedData.WellFormed`.
- Allocator.HandleSliderChange: its own contract only pins the moved slider. What it does to the other two is stated by the lemmas about it (GrowKeepsTotal, EvenShrinkKeepsTotal, OddShrinkOverflows), which assume a valid split and a value in 0..100 as the slider produces.

## Findings

| source | as written | input that shows it | evidently intended | confidence | as-written member | corrected member |
|---|---|---|---|---|---|---|
| components/assistant-modal.tsx:123-150 | on a shrink each other slider gains half the difference; with an odd difference both land on a half, the sum is exactly 100 so the correction does not fire, and `Math.round` then rounds both halves up | 30/40/30 with short set to 29 stores 29/41/31, which sums to 101 (likewise the seed split 30/50/20 with short set to 29 stores 29/51/21), and the save is then refused | the stored split sums to 100 after every move, as the comment before the correction states | high, derived by proof; not executed | Allocator.OddShrinkOverflows | Allocator.BalancedKeepsTotal |

The corrected handler `Allocator.BalancedSliderChange` rounds before the
correction, so the correction sees the integers that will be stored. Outside
an odd shrink it equals the handler as written
(`Allocator.BalancedAgreesOutsideOddShrink`). The form's slider
`AssistantModal.SetSlider` runs the handler as written, and
`AssistantModal.SliderSaveEnabledIff` lifts the defect to the form: saving
stays enabled exactly when the move is not an odd shrink. The corrected
slider is `AssistantModal.SetSliderBalanced`, and
`AssistantModal.SliderKeepsSaveEnabled` proves that it never disables saving.

=== FILE: allocator.dfy ===
/** The response-length sliders of the create/edit form. Moving one slider
    rebalances the other two so that the three percentages keep adding up to
    100: when the moved slider grows, the others give up shares proportional to
    their size; when it shrinks, the others each receive half the difference.
    A correction step then pushes any remaining gap into the first other
    slider that can take it, and finally every value is rounded.

    The arithmetic is done over exact reals; `Math.round(x)` is `Floor(x + 0.5)`,
    which also rounds halves towards positive infinity. */
module Allocator {
  import opened Types

  datatype Field = Short | Medium | Long

  /** The working copy of the three slider values, which may hold fractions
      between the rebalancing and the final rounding. */
  datatype Values = Values(short: real, medium: real, long: real)

  function At(v: Values, f: Field): real {
    match f
    case Short => v.short
    case Medium => v.medium
    case Long => v.long
  }

  function Set(v: Values, f: Field, x: real): (r: Values)
    ensures At(r, f) == x
    ensures forall g :: g != f ==> At(r, g) == At(v, g)
  {
    match f
    case Short => v.(short := x)
    case Medium => v.(medium := x)
    case Long => v.(long := x)
  }

  function Sum(v: Values): real {
    v.short + v.medium + v.long
  }

  function Get(rl: ResponseLength, f: Field): int {
    match f
    case Short => rl.short
    case Medium => rl.medium
    case Long => rl.long
  }

  function FromSplit(rl: ResponseLength): (v: Values)
    ensures forall f :: At(v, f) == Get(rl, f) as real
  {
    Values(rl.short as real, rl.medium as real, rl.long as real)
  }

  /** `Math.round`. */
  function Round(x: real): int {
    (x + 0.5).Floor
  }

  function RoundAll(v: Values): (r: ResponseLength)
    ensures forall f :: Get(r, f) == Round(At(v, f))
  {
    ResponseLength(Round(v.short), Round(v.medium), Round(v.long))
  }

  /** The two sliders other than `f`, in the order short, medium, long. */
  function Others(f: Field): (r: (Field, Field))
    ensures r.0 != f && r.1 != f && r.0 != r.1
  {
    match f
    case Short => (Medium, Long)
    case Medium => (Short, Long)
    case Long => (Short, Medium)
  }

  lemma OtherIsOneOf(f: Field, g: Field)
    requires g != f
    ensures g == Others(f).0 || g == Others(f).1
  {
    match f
    case Short =>
    case Medium =>
    case Long =>
  }

  /** A value a slider can hold. */
  predicate Absorbs(x: real) {
    0.0 <= x <= 100.0
  }

  /** A gap that neither other slider can take cannot be taken by any
      slider other than `f`. */
  lemma NoOtherAbsorbs(v: Values, f: Field, gap: real)
    requires !Absorbs(At(v, Others(f).0) + gap) && !Absorbs(At(v, Others(f).1) + gap)
    ensures forall g :: g != f ==> !Absorbs(At(v, g) + gap)
  {
    forall g | g != f
      ensures !Absorbs(At(v, g) + gap)
    {
      OtherIsOneOf(f, g);
    }
  }

  lemma SumSplit(v: Values, f: Field)
    ensures Sum(v) == At(v, f) + At(v, Others(f).0) + At(v, Others(f).1)
  {
    match f
    case Short =>
    case Medium =>
    case Long =>
  }

  lemma TotalSplit(rl: ResponseLength, f: Field)
    ensures Total(rl) == Get(rl, f) + Get(rl, Others(f).0) + Get(rl, Others(f).1)
  {
    match f
    case Short =>
    case Medium =>
    case Long =>
  }

  /** Two splits that agree on every field are the same split. */
  lemma SplitExt(r: ResponseLength, s: ResponseLength)
    requires forall f :: Get(r, f) == Get(s, f)
    ensures r == s
  {
    assert Get(r, Short) == Get(s, Short);
    assert Get(r, Medium) == Get(s, Medium);
    assert Get(r, Long) == Get(s, Long);
  }

  /** The sum of the two sliders that are not `f`. */
  function OtherTotal(rl: ResponseLength, f: Field): int {
    Get(rl, Others(f).0) + Get(rl, Others(f).1)
  }

  /** The amount a growing slider takes from the slider holding `x`: the
      difference times that slider's part of the other total, rounded. */
  function Share(x: real, diff: real, total: real): int
    requires total > 0.0
  {
    Round(diff * (x / total))
  }

  /** The share the slider `t` gives up when `f` grows to `n`. */
  function GrowShare(rl: ResponseLength, f: Field, n: int, t: Field): int
    requires OtherTotal(rl, f) > 0
  {
    Share(Get(rl, t) as real, (n - Get(rl, f)) as real, OtherTotal(rl, f) as real)
  }

  function Take(v: Values, t: Field, diff: real, total: real): (r: Values)
    requires total > 0.0
    ensures At(r, t) >= 0.0
  {
    var x := At(v, t) - Share(At(v, t), diff, total) as real;
    Set(v, t, if x < 0.0 then 0.0 else x)
  }

  function Give(v: Values, t: Field, amount: real): (r: Values)
    ensures At(r, t) <= 100.0
  {
    var x := At(v, t) + amount;
    Set(v, t, if x > 100.0 then 100.0 else x)
  }

  /** The rebalancing before correction: proportional take on growth, equal
      give on shrink, nothing when there is nothing to take from; then the
      moved slider gets its new value. */
  function Redistribute(v: Values, f: Field, newValue: real): (r: Values)
    ensures At(r, f) == newValue
  {
    var diff := newValue - At(v, f);
    var t1 := Others(f).0;
    var t2 := Others(f).1;
    var otherTotal := At(v, t1) + At(v, t2);
    var moved :=
      if diff > 0.0 && otherTotal > 0.0 then Take(Take(v, t1, diff, otherTotal), t2, diff, otherTotal)
      else if diff < 0.0 then Give(Give(v, t1, -diff / 2.0), t2, -diff / 2.0)
      else v;
    Set(moved, f, newValue)
  }

  /** The correction: when the values do not add up to 100, the first other
      slider that stays within [0, 100] after taking the whole gap takes it;
      when neither can, nothing changes. */
  function Correct(v: Values, f: Field): (r: Values)
    ensures At(r, f) == At(v, f)
    ensures Sum(v) == 100.0 ==> r == v
    ensures (exists g :: g != f && Absorbs(At(v, g) + 100.0 - Sum(v))) ==> Sum(r) == 100.0
    ensures (forall g :: g != f ==> !Absorbs(At(v, g) + 100.0 - Sum(v))) ==> r == v
    ensures forall g :: Absorbs(At(v, g)) ==> Absorbs(At(r, g))
  {
    var total := Sum(v);
    var t1 := Others(f).0;
    var t2 := Others(f).1;
    SumSplit(v, f);
    if total == 100.0 then v
    else
      var correction := 100.0 - total;
      if Absorbs(At(v, t1) + correction) then
        var r := Set(v, t1, At(v, t1) + correction);
        SumSplit(r, f);
        r
      else if Absorbs(At(v, t2) + correction) then
        var r := Set(v, t2, At(v, t2) + correction);
        SumSplit(r, f);
        r
      else
        NoOtherAbsorbs(v, f, correction);
        v
  }

  /** `handleSliderChange` as written: rebalance, correct, round. The moved
      slider always lands exactly on the requested value. */
  function HandleSliderChange(rl: ResponseLength, f: Field, newValue: int): (r: ResponseLength)
    ensures Get(r, f) == newValue
  {
    RoundAll(Correct(Redistribute(FromSplit(rl), f, newValue as real), f))
  }

  /** Rounding every value to an integer. */
  function Snap(v: Values): (r: Values)
    ensures forall g :: At(r, g) == Round(At(v, g)) as real
  {
    Values(Round(v.short) as real, Round(v.medium) as real, Round(v.long) as real)
  }

  /** The slider handler with the rounding moved before the correction, so
      that the correction sees the integers that will be stored. */
  function BalancedSliderChange(rl: ResponseLength, f: Field, newValue: int): (r: ResponseLength)
    ensures Get(r, f) == newValue
  {
    RoundAll(Correct(Snap(Redistribute(FromSplit(rl), f, newValue as real)), f))
  }

  // Rounding facts.

  lemma RoundOfInt(n: int)
    ensures Round(n as real) == n
  {
  }

  lemma RoundMono(x: real, y: real)
    requires x <= y
    ensures Round(x) <= Round(y)
  {
  }

  lemma RoundHalf(n: int)
    ensures Round(n as real + 0.5) == n + 1
  {
  }

  /** Two values adding up to an integer `d` round to `d` or `d + 1`. */
  lemma RoundPairSum(x: real, y: real, d: int)
    requires x + y == d as real
    ensures d <= Round(x) + Round(y) <= d + 1
  {
  }


  // Proportional shares.

  lemma SplitBounds(rl: ResponseLength)
    ensures ValidSplit(rl) <==> (forall g :: 0 <= Get(rl, g) <= 100) && Total(rl) == 100
  {
    assert Get(rl, Short) == rl.short && Get(rl, Medium) == rl.medium && Get(rl, Long) == rl.long;
  }

  lemma ValuesExt(v: Values, w: Values)
    requires forall g :: At(v, g) == At(w, g)
    ensures v == w
  {
    assert At(v, Short) == At(w, Short);
    assert At(v, Medium) == At(w, Medium);
    assert At(v, Long) == At(w, Long);
  }

  /** Every value is an integer. */
  predicate Whole(v: Values) {
    forall g :: At(v, g) == Round(At(v, g)) as real
  }

  lemma SnapWhole(v: Values)
    requires Whole(v)
    ensures Snap(v) == v
  {
    ValuesExt(Snap(v), v);
  }

  /** A share of at most the whole other total is at most the slider's value. */
  lemma ProportionBounds(d: real, a: real, total: real)
    requires 0.0 < d <= total && 0.0 <= a <= total
    ensures 0.0 <= d * (a / total) <= a
  {
    var q := a / total;
    assert q * total == a;
    assert 0.0 <= q <= 1.0;
    assert d * q <= total * q;
  }

  /** The two unrounded shares add up to the whole difference. */
  lemma ProportionsSum(d: real, a1: real, a2: real, total: real)
    requires total > 0.0 && a1 + a2 == total
    ensures d * (a1 / total) + d * (a2 / total) == d
  {
    assert a1 / total + a2 / total == 1.0;
    assert d * (a1 / total) + d * (a2 / total) == d * (a1 / total + a2 / total);
  }

  /** A rounded proportional share of a positive difference `d` that does not
      exceed the total is at most the slider it comes from and at most `d`. */
  lemma ShareBound(d: int, a: int, total: int)
    requires 0 < d <= total && 0 <= a <= total
    ensures 0 <= Share(a as real, d as real, total as real) <= a
    ensures Share(a as real, d as real, total as real) <= d
  {
    ProportionBounds(d as real, a as real, total as real);
    var p := d as real * (a as real / total as real);
    assert p <= d as real by {
      assert a as real / total as real <= 1.0;
    }
    RoundMono(0.0, p);
    RoundMono(p, a as real);
    RoundMono(p, d as real);
    RoundOfInt(0);
    RoundOfInt(a);
    RoundOfInt(d);
  }

  /** The two rounded shares together cover `d` or `d + 1`. */
  lemma SharePair(d: int, a1: int, a2: int)
    requires 0 < d <= a1 + a2 && 0 <= a1 && 0 <= a2
    ensures 0 <= Share(a1 as real, d as real, (a1 + a2) as real) <= a1
    ensures 0 <= Share(a2 as real, d as real, (a1 + a2) as real) <= a2
    ensures Share(a2 as real, d as real, (a1 + a2) as real) <= d
    ensures d <= Share(a1 as real, d as real, (a1 + a2) as real) + Share(a2 as real, d as real, (a1 + a2) as real) <= d + 1
  {
    var total := (a1 + a2) as real;
    ShareBound(d, a1, a1 + a2);
    ShareBound(d, a2, a1 + a2);
    ProportionsSum(d as real, a1 as real, a2 as real, total);
    RoundPairSum(d as real * (a1 as real / total), d as real * (a2 as real / total), d);
  }

  /** The same bounds for the two sliders other than a growing one. */
  lemma GrowShareBounds(rl: ResponseLength, f: Field, n: int)
    requires ValidSplit(rl) && Get(rl, f) < n <= 100
    ensures OtherTotal(rl, f) > 0
    ensures 0 <= GrowShare(rl, f, n, Others(f).0) <= Get(rl, Others(f).0)
    ensures 0 <= GrowShare(rl, f, n, Others(f).1) <= Get(rl, Others(f).1)
    ensures GrowShare(rl, f, n, Others(f).1) <= n - Get(rl, f)
    ensures n - Get(rl, f) <= GrowShare(rl, f, n, Others(f).0) + GrowShare(rl, f, n, Others(f).1) <= n - Get(rl, f) + 1
  {
    TotalSplit(rl, f);
    SplitBounds(rl);
    SharePair(n - Get(rl, f), Get(rl, Others(f).0), Get(rl, Others(f).1));
  }

  /** What the rebalancing does when a slider grows from a valid split: each
      other slider loses exactly its rounded proportional share. */
  lemma RedistributeGrow(rl: ResponseLength, f: Field, n: int)
    requires ValidSplit(rl) && Get(rl, f) < n <= 100
    ensures OtherTotal(rl, f) > 0
    ensures var w := Redistribute(FromSplit(rl), f, n as real);
            && At(w, f) == n as real
            && At(w, Others(f).0) == (Get(rl, Others(f).0) - GrowShare(rl, f, n, Others(f).0)) as real
            && At(w, Others(f).1) == (Get(rl, Others(f).1) - GrowShare(rl, f, n, Others(f).1)) as real
  {
    GrowShareBounds(rl, f, n);
    var t1, t2 := Others(f).0, Others(f).1;
    var o, a1, a2 := Get(rl, f), Get(rl, t1), Get(rl, t2);
    var total := (a1 + a2) as real;
    var d := (n - o) as real;
    var s1, s2 := GrowShare(rl, f, n, t1), GrowShare(rl, f, n, t2);
    var v := FromSplit(rl);
    assert s1 == Share(At(v, t1), d, total) && s2 == Share(At(v, t2), d, total);
    var v1 := Take(v, t1, d, total);
    assert At(v1, t1) == (a1 - s1) as real && At(v1, t2) == a2 as real;
    var v2 := Take(v1, t2, d, total);
    assert At(v2, t1) == (a1 - s1) as real && At(v2, t2) == (a2 - s2) as real;
    assert Redistribute(v, f, n as real) == Set(v2, f, n as real);
  }

  /** What the rebalancing does when a slider shrinks from a valid split: each
      other slider receives half the difference, which never pushes it past 100. */
  lemma RedistributeShrink(rl: ResponseLength, f: Field, n: int)
    requires ValidSplit(rl) && 0 <= n < Get(rl, f)
    ensures var w := Redistribute(FromSplit(rl), f, n as real);
            && At(w, f) == n as real
            && At(w, Others(f).0) == Get(rl, Others(f).0) as real + (Get(rl, f) - n) as real / 2.0
            && At(w, Others(f).1) == Get(rl, Others(f).1) as real + (Get(rl, f) - n) as real / 2.0
  {
    var t1, t2 := Others(f).0, Others(f).1;
    TotalSplit(rl, f);
    SplitBounds(rl);
    var o, a1, a2 := Get(rl, f), Get(rl, t1), Get(rl, t2);
    var half := (o - n) as real / 2.0;
    var v := FromSplit(rl);
    var v1 := Give(v, t1, half);
    assert At(v1, t1) == a1 as real + half && At(v1, t2) == a2 as real;
    var v2 := Give(v1, t2, half);
    assert At(v2, t1) == a1 as real + half && At(v2, t2) == a2 as real + half;
    assert Redistribute(v, f, n as real) == Set(v2, f, n as real);
  }

  // The slider handler as written.

  /** Leaving a slider where it is changes nothing, in both handlers. */
  lemma NoChangeIsIdentity(rl: ResponseLength, f: Field)
    requires ValidSplit(rl)
    ensures HandleSliderChange(rl, f, Get(rl, f)) == rl
    ensures BalancedSliderChange(rl, f, Get(rl, f)) == rl
  {
    var v := FromSplit(rl);
    ValuesExt(Redistribute(v, f, Get(rl, f) as real), v);
    forall g
      ensures At(v, g) == Round(At(v, g)) as real && Get(RoundAll(v), g) == Get(rl, g)
    {
      RoundOfInt(Get(rl, g));
    }
    SnapWhole(v);
    SplitExt(RoundAll(v), rl);
  }

  /** Growing a slider from a valid split keeps the split valid: the second
      other slider loses exactly its rounded proportional share, the first
      covers the rest of the difference, and neither grows. */
  lemma GrowKeepsTotal(rl: ResponseLength, f: Field, n: int)
    requires ValidSplit(rl) && Get(rl, f) < n <= 100
    ensures OtherTotal(rl, f) > 0
    ensures var r := HandleSliderChange(rl, f, n);
            && ValidSplit(r)
            && Get(r, Others(f).1) == Get(rl, Others(f).1) - GrowShare(rl, f, n, Others(f).1)
            && Get(r, Others(f).0) == Get(rl, Others(f).0) - (n - Get(rl, f) - GrowShare(rl, f, n, Others(f).1))
            && forall g :: g != f ==> Get(r, g) <= Get(rl, g)
  {
    RedistributeGrow(rl, f, n);
    GrowShareBounds(rl, f, n);
    TotalSplit(rl, f);
    SplitBounds(rl);
    var t1, t2 := Others(f).0, Others(f).1;
    var o, a1, a2 := Get(rl, f), Get(rl, t1), Get(rl, t2);
    var s1, s2 := GrowShare(rl, f, n, t1), GrowShare(rl, f, n, t2);
    var w := Redistribute(FromSplit(rl), f, n as real);
    SumSplit(w, f);
    var c := Correct(w, f);
    if s1 + s2 == n - o {
      assert Sum(w) == 100.0;
    } else {
      assert Sum(w) == 99.0;
      assert Absorbs(At(w, t1) + 1.0);
      assert c == Set(w, t1, At(w, t1) + 1.0);
    }
    assert At(c, t1) == (a1 - (n - o - s2)) as real;
    assert At(c, t2) == (a2 - s2) as real;
    var r := RoundAll(c);
    RoundOfInt(n);
    RoundOfInt(a1 - (n - o - s2));
    RoundOfInt(a2 - s2);
    TotalSplit(r, f);
    SplitBounds(r);
    forall g | g != f
      ensures Get(r, g) <= Get(rl, g)
    {
      OtherIsOneOf(f, g);
    }
  }

  /** A shrink from a valid split adds up to exactly 100 before rounding, so
      the correction never fires. */
  lemma ShrinkNeedsNoCorrection(rl: ResponseLength, f: Field, n: int)
    requires ValidSplit(rl) && 0 <= n < Get(rl, f)
    ensures Correct(Redistribute(FromSplit(rl), f, n as real), f) == Redistribute(FromSplit(rl), f, n as real)
  {
    RedistributeShrink(rl, f, n);
    TotalSplit(rl, f);
    SumSplit(Redistribute(FromSplit(rl), f, n as real), f);
  }

  /** Shrinking a slider by an even amount hands half of it to each other
      slider and keeps the split valid. */
  lemma EvenShrinkKeepsTotal(rl: ResponseLength, f: Field, n: int)
    requires ValidSplit(rl) && 0 <= n < Get(rl, f) && (Get(rl, f) - n) % 2 == 0
    ensures ValidSplit(HandleSliderChange(rl, f, n))
    ensures forall g :: g != f ==> Get(HandleSliderChange(rl, f, n), g) == Get(rl, g) + (Get(rl, f) - n) / 2
  {
    RedistributeShrink(rl, f, n);
    ShrinkNeedsNoCorrection(rl, f, n);
    TotalSplit(rl, f);
    SplitBounds(rl);
    var o, k := Get(rl, f), (Get(rl, f) - n) / 2;
    assert (o - n) as real / 2.0 == k as real;
    var r := HandleSliderChange(rl, f, n);
    forall g | g != f
      ensures Get(r, g) == Get(rl, g) + k
    {
      OtherIsOneOf(f, g);
      RoundOfInt(Get(rl, g) + k);
    }
    OtherIsOneOf(f, Others(f).0);
    OtherIsOneOf(f, Others(f).1);
    TotalSplit(r, f);
    SplitBounds(r);
  }

  /** Shrinking a slider by an odd amount leaves each other slider on a half,
      and both halves round up: the stored split adds up to 101. */
  lemma OddShrinkOverflows(rl: ResponseLength, f: Field, n: int)
    requires ValidSplit(rl) && 0 <= n < Get(rl, f) && (Get(rl, f) - n) % 2 == 1
    ensures Total(HandleSliderChange(rl, f, n)) == 101
    ensures !ValidSplit(HandleSliderChange(rl, f, n))
    ensures forall g :: g != f ==> Get(HandleSliderChange(rl, f, n), g) == Get(rl, g) + (Get(rl, f) - n) / 2 + 1
  {
    RedistributeShrink(rl, f, n);
    ShrinkNeedsNoCorrection(rl, f, n);
    TotalSplit(rl, f);
    var o, k := Get(rl, f), (Get(rl, f) - n) / 2;
    assert (o - n) as real / 2.0 == k as real + 0.5;
    var r := HandleSliderChange(rl, f, n);
    forall g | g != f
      ensures Get(r, g) == Get(rl, g) + k + 1
    {
      OtherIsOneOf(f, g);
      RoundHalf(Get(rl, g) + k);
    }
    OtherIsOneOf(f, Others(f).0);
    OtherIsOneOf(f, Others(f).1);
    TotalSplit(r, f);
  }

  /** The stored split stays valid exactly when the move is not an odd shrink. */
  lemma AsWrittenValidIff(rl: ResponseLength, f: Field, n: int)
    requires ValidSplit(rl) && 0 <= n <= 100
    ensures ValidSplit(HandleSliderChange(rl, f, n)) <==> !(n < Get(rl, f) && (Get(rl, f) - n) % 2 == 1)
  {
    if n == Get(rl, f) {
      NoChangeIsIdentity(rl, f);
    } else if n > Get(rl, f) {
      GrowKeepsTotal(rl, f, n);
    } else if (Get(rl, f) - n) % 2 == 0 {
      EvenShrinkKeepsTotal(rl, f, n);
    } else {
      OddShrinkOverflows(rl, f, n);
    }
  }

  /** The correction changes at most one slider, never the moved one: the
      first other slider when it can take the gap, else the second when that
      one can. */
  lemma CorrectPicksFirstAbsorber(v: Values, f: Field)
    ensures forall g, h :: g != h && At(Correct(v, f), g) != At(v, g) ==> At(Correct(v, f), h) == At(v, h)
    ensures Sum(v) != 100.0 && Absorbs(At(v, Others(f).0) + 100.0 - Sum(v)) ==>
              At(Correct(v, f), Others(f).1) == At(v, Others(f).1)
    ensures !Absorbs(At(v, Others(f).0) + 100.0 - Sum(v)) ==>
              At(Correct(v, f), Others(f).0) == At(v, Others(f).0)
  {
    var c := Correct(v, f);
    var t1, t2 := Others(f).0, Others(f).1;
    forall g, h | g != h && At(c, g) != At(v, g)
      ensures At(c, h) == At(v, h)
    {
      if Sum(v) != 100.0 && Absorbs(At(v, t1) + 100.0 - Sum(v)) {
        CorrectFirst(v, f);
      }
    }
  }

  /** Three hand traces from 30 / 40 / 30: growing short to 50, shrinking it
      to 10, and shrinking it to 29, the last one summing to 101. */
  lemma HandTraces()
    ensures HandleSliderChange(ResponseLength(30, 40, 30), Short, 50) == ResponseLength(50, 29, 21)
    ensures HandleSliderChange(ResponseLength(30, 40, 30), Short, 10) == ResponseLength(10, 50, 40)
    ensures HandleSliderChange(ResponseLength(30, 40, 30), Short, 29) == ResponseLength(29, 41, 31)
  {
    var rl := ResponseLength(30, 40, 30);
    GrowKeepsTotal(rl, Short, 50);
    assert 20.0 * (30.0 / 70.0) == 60.0 / 7.0;
    assert Round(60.0 / 7.0) == 9;
    assert GrowShare(rl, Short, 50, Long) == 9;
    SplitExt(HandleSliderChange(rl, Short, 50), ResponseLength(50, 29, 21));
    EvenShrinkKeepsTotal(rl, Short, 10);
    SplitExt(HandleSliderChange(rl, Short, 10), ResponseLength(10, 50, 40));
    OddShrinkOverflows(rl, Short, 29);
    SplitExt(HandleSliderChange(rl, Short, 29), ResponseLength(29, 41, 31));
  }

  /** Moving the short slider of the first seed assistant from 30 to 29
      stores 29 / 51 / 21; the balanced handler stores 29 / 50 / 21. */
  lemma SeedShrinkExample()
    ensures HandleSliderChange(ResponseLength(30, 50, 20), Short, 29) == ResponseLength(29, 51, 21)
    ensures BalancedSliderChange(ResponseLength(30, 50, 20), Short, 29) == ResponseLength(29, 50, 21)
  {
    var rl := ResponseLength(30, 50, 20);
    var w := Redistribute(FromSplit(rl), Short, 29.0);
    assert w == Values(29.0, 50.5, 20.5);
    RoundHalf(50);
    RoundHalf(20);
    RoundOfInt(29);
    RoundOfInt(50);
    assert Snap(w) == Values(29.0, 51.0, 21.0);
  }

  // The corrected handler.

  /** Outside an odd shrink the rebalanced values are already whole, so
      rounding first changes nothing and both handlers agree. */
  lemma BalancedAgreesOutsideOddShrink(rl: ResponseLength, f: Field, n: int)
    requires ValidSplit(rl) && 0 <= n <= 100
    requires !(n < Get(rl, f) && (Get(rl, f) - n) % 2 == 1)
    ensures BalancedSliderChange(rl, f, n) == HandleSliderChange(rl, f, n)
  {
    var w := Redistribute(FromSplit(rl), f, n as real);
    var o := Get(rl, f);
    if n == o {
      NoChangeIsIdentity(rl, f);
    } else {
      if n > o {
        RedistributeGrow(rl, f, n);
        RoundOfInt(Get(rl, Others(f).0) - GrowShare(rl, f, n, Others(f).0));
        RoundOfInt(Get(rl, Others(f).1) - GrowShare(rl, f, n, Others(f).1));
      } else {
        RedistributeShrink(rl, f, n);
        var k := (o - n) / 2;
        assert (o - n) as real / 2.0 == k as real;
        RoundOfInt(Get(rl, Others(f).0) + k);
        RoundOfInt(Get(rl, Others(f).1) + k);
      }
      RoundOfInt(n);
      forall g
        ensures At(w, g) == Round(At(w, g)) as real
      {
        if g != f {
          OtherIsOneOf(f, g);
        }
      }
      SnapWhole(w);
    }
  }

  /** When the first other slider can take the gap, it takes all of it. */
  lemma CorrectFirst(v: Values, f: Field)
    requires Sum(v) != 100.0 && Absorbs(At(v, Others(f).0) + 100.0 - Sum(v))
    ensures Correct(v, f) == Set(v, Others(f).0, At(v, Others(f).0) + 100.0 - Sum(v))
  {
  }

  /** After an odd shrink, rounding first lifts both halves to the next integer. */
  lemma OddShrinkSnap(rl: ResponseLength, f: Field, n: int)
    requires ValidSplit(rl) && 0 <= n < Get(rl, f) && (Get(rl, f) - n) % 2 == 1
    ensures var sn := Snap(Redistribute(FromSplit(rl), f, n as real));
            && At(sn, f) == n as real
            && At(sn, Others(f).0) == (Get(rl, Others(f).0) + (Get(rl, f) - n) / 2 + 1) as real
            && At(sn, Others(f).1) == (Get(rl, Others(f).1) + (Get(rl, f) - n) / 2 + 1) as real
  {
    RedistributeShrink(rl, f, n);
    var k := (Get(rl, f) - n) / 2;
    assert (Get(rl, f) - n) as real / 2.0 == k as real + 0.5;
    RoundHalf(Get(rl, Others(f).0) + k);
    RoundHalf(Get(rl, Others(f).1) + k);
    RoundOfInt(n);
  }

  /** After an odd shrink the balanced handler rounds both halves up and then
      takes the extra point back from the first other slider. */
  lemma BalancedOddShrink(rl: ResponseLength, f: Field, n: int)
    requires ValidSplit(rl) && 0 <= n < Get(rl, f) && (Get(rl, f) - n) % 2 == 1
    ensures var r := BalancedSliderChange(rl, f, n);
            && ValidSplit(r)
            && Get(r, Others(f).0) == Get(rl, Others(f).0) + (Get(rl, f) - n) / 2
            && Get(r, Others(f).1) == Get(rl, Others(f).1) + (Get(rl, f) - n) / 2 + 1
  {
    OddShrinkSnap(rl, f, n);
    TotalSplit(rl, f);
    SplitBounds(rl);
    var t1, t2 := Others(f).0, Others(f).1;
    var o, a1, a2 := Get(rl, f), Get(rl, t1), Get(rl, t2);
    var k := (o - n) / 2;
    var sn := Snap(Redistribute(FromSplit(rl), f, n as real));
    SumSplit(sn, f);
    assert Sum(sn) == 101.0;
    CorrectFirst(sn, f);
    var c := Correct(sn, f);
    assert At(c, f) == n as real;
    assert At(c, t1) == (a1 + k) as real && At(c, t2) == (a2 + k + 1) as real;
    var r := RoundAll(c);
    RoundOfInt(n);
    RoundOfInt(a1 + k);
    RoundOfInt(a2 + k + 1);
    TotalSplit(r, f);
    SplitBounds(r);
  }

  /** The corrected handler keeps every valid split valid, lands the moved
      slider on the requested value, and moves the other two against it. */
  lemma BalancedKeepsTotal(rl: ResponseLength, f: Field, n: int)
    requires ValidSplit(rl) && 0 <= n <= 100
    ensures ValidSplit(BalancedSliderChange(rl, f, n))
    ensures Get(rl, f) <= n ==> forall g :: g != f ==> Get(BalancedSliderChange(rl, f, n), g) <= Get(rl, g)
    ensures n <= Get(rl, f) ==> forall g :: g != f ==> Get(BalancedSliderChange(rl, f, n), g) >= Get(rl, g)
  {
    var o := Get(rl, f);
    if n < o && (o - n) % 2 == 1 {
      BalancedOddShrink(rl, f, n);
      forall g | g != f
        ensures Get(BalancedSliderChange(rl, f, n), g) >= Get(rl, g)
      {
        OtherIsOneOf(f, g);
      }
    } else {
      BalancedAgreesOutsideOddShrink(rl, f, n);
      if n == o {
        NoChangeIsIdentity(rl, f);
      } else if n > o {
        GrowKeepsTotal(rl, f, n);
      } else {
        EvenShrinkKeepsTotal(rl, f, n);
      }
    }
  }
}

=== FILE: assistant_modal.dfy ===
/** The create/edit modal: the form it holds, how the form is reset when the
    modal opens, the step-1 check that guards the second step, the sliders,
    and the save that turns the form into an edit or a creation. */
module AssistantModal {
  import opened Types
  import opened Lists
  import Allocator
  import Coordinator
  import Repository
  import SeedData
  import UiStore

  /** The form values. Language and tone can be unset: opening the modal to
      create clears them. */
  datatype FormData = FormData(
    name: string,
    language: Option<Language>,
    tone: Option<Tone>,
    responseLength: ResponseLength,
    audioEnabled: bool)

  /** The split every fresh form starts from. */
  const DefaultSplit := ResponseLength(33, 34, 33)

  /** The values the form is created with. */
  function DefaultForm(): (d: FormData)
    ensures d.name == [] && d.language == Some(Spanish) && d.tone == Some(Professional)
    ensures ValidSplit(d.responseLength) && !d.audioEnabled
  {
    FormData([], Some(Spanish), Some(Professional), DefaultSplit, false)
  }

  /** The form values of an existing assistant. */
  function FromAssistant(a: Assistant): (r: FormData)
    ensures r.name == a.name && r.language == Some(a.language) && r.tone == Some(a.tone)
    ensures r.responseLength == a.responseLength && r.audioEnabled == a.audioEnabled
  {
    FormData(a.name, Some(a.language), Some(a.tone), a.responseLength, a.audioEnabled)
  }

  /** The form a creation starts from: no name, no language, no tone. */
  function BlankForm(): (r: FormData)
    ensures r.name == [] && r.language.None? && r.tone.None?
    ensures ValidSplit(r.responseLength) && !r.audioEnabled
  {
    FormData([], None, None, DefaultSplit, false)
  }

  /** The reset performed whenever the modal is open: an edit with a selected
      assistant loads that assistant, anything else loads the blank form; a
      closed modal leaves the form alone. */
  function ResetForm(form: FormData, ui: UiStore.UiState): (r: FormData)
    ensures !ui.isModalOpen ==> r == form
    ensures ui.isModalOpen && ui.modalMode == Edit && ui.selectedAssistant.Some? ==>
              r == FromAssistant(ui.selectedAssistant.value)
    ensures ui.isModalOpen && (ui.modalMode == Create || ui.selectedAssistant.None?) ==> r == BlankForm()
  {
    if !ui.isModalOpen then form
    else if ui.modalMode == Edit && ui.selectedAssistant.Some? then FromAssistant(ui.selectedAssistant.value)
    else BlankForm()
  }

  function TotalPercentage(form: FormData): int {
    Total(form.responseLength)
  }

  predicate IsValidPercentage(form: FormData) {
    TotalPercentage(form) == 100
  }

  /** The name has at least three characters and a language and a tone are chosen. */
  predicate Step1Valid(form: FormData) {
    |form.name| >= 3 && form.language.Some? && form.tone.Some?
  }

  /** Every slider holds an integer percentage between 0 and 100. */
  predicate SlidersInRange(form: FormData) {
    && 0 <= form.responseLength.short <= 100
    && 0 <= form.responseLength.medium <= 100
    && 0 <= form.responseLength.long <= 100
  }

  /** A modal on step 2 holds a form that passed step 1; the save button is
      only on step 2. */
  predicate Consistent(form: FormData, ui: UiStore.UiState) {
    ui.modalStep == 2 ==> Step1Valid(form)
  }

  /** `handleNextStep`: on to step 2 only with a valid first step; otherwise
      the modal stays where it is. */
  function HandleNextStep(form: FormData, ui: UiStore.UiState): (r: UiStore.UiState)
    ensures r.modalStep == 2 <==> Step1Valid(form) || ui.modalStep == 2
    ensures r.(modalStep := ui.modalStep) == ui
  {
    if Step1Valid(form) then UiStore.SetModalStep(ui, 2) else ui
  }

  /** `handlePrevStep`. */
  function HandlePrevStep(ui: UiStore.UiState): (r: UiStore.UiState)
    ensures r.modalStep == 1
    ensures r.(modalStep := ui.modalStep) == ui
  {
    UiStore.SetModalStep(ui, 1)
  }

  /** A slider move: the form's split goes through `handleSliderChange` as
      written. */
  function SetSlider(form: FormData, f: Allocator.Field, value: int): (r: FormData)
    ensures Allocator.Get(r.responseLength, f) == value
    ensures r.(responseLength := form.responseLength) == form
    ensures SlidersInRange(form) && IsValidPercentage(form) && 0 <= value <= 100 ==>
              (IsValidPercentage(r) <==>
                 !(value < Allocator.Get(form.responseLength, f) && (Allocator.Get(form.responseLength, f) - value) % 2 == 1))
  {
    var o := Allocator.Get(form.responseLength, f);
    if SlidersInRange(form) && IsValidPercentage(form) && 0 <= value <= 100 then
      if value < o && (o - value) % 2 == 1 then
        Allocator.OddShrinkOverflows(form.responseLength, f, value);
        form.(responseLength := Allocator.HandleSliderChange(form.responseLength, f, value))
      else
        Allocator.AsWrittenValidIff(form.responseLength, f, value);
        form.(responseLength := Allocator.HandleSliderChange(form.responseLength, f, value))
    else
      form.(responseLength := Allocator.HandleSliderChange(form.responseLength, f, value))
  }

  /** A slider move through the corrected allocator, which rounds before the
      correction. */
  function SetSliderBalanced(form: FormData, f: Allocator.Field, value: int): (r: FormData)
    ensures Allocator.Get(r.responseLength, f) == value
    ensures r.(responseLength := form.responseLength) == form
    ensures SlidersInRange(form) && IsValidPercentage(form) && 0 <= value <= 100 ==>
              SlidersInRange(r) && IsValidPercentage(r)
  {
    if SlidersInRange(form) && IsValidPercentage(form) && 0 <= value <= 100 then
      Allocator.BalancedKeepsTotal(form.responseLength, f, value);
      form.(responseLength := Allocator.BalancedSliderChange(form.responseLength, f, value))
    else
      form.(responseLength := Allocator.BalancedSliderChange(form.responseLength, f, value))
  }

  /** What `handleSave` asks of the repository. */
  datatype SaveRequest =
    | Rejected
    | UpdateRequest(id: string, patch: Patch)
    | CreateRequest(fields: AssistantFields)

  /** The edit patch: every form field, never the id or the rules. */
  function FormPatch(form: FormData): (p: Patch)
    requires form.language.Some? && form.tone.Some?
    ensures p.id.None? && p.rules.None?
    ensures forall a :: Merge(a, p) == a.(name := form.name, language := form.language.value,
                                          tone := form.tone.value, responseLength := form.responseLength,
                                          audioEnabled := form.audioEnabled)
  {
    Patch(None, Some(form.name), Some(form.language.value), Some(form.tone.value),
          Some(form.responseLength), Some(form.audioEnabled), None)
  }

  /** The creation payload: the form fields with empty rules. */
  function FormFields(form: FormData): (r: AssistantFields)
    requires form.language.Some? && form.tone.Some?
    ensures forall id :: WithId(r, id) == Assistant(id, form.name, form.language.value, form.tone.value,
                                                    form.responseLength, form.audioEnabled, "")
  {
    AssistantFields(form.name, form.language.value, form.tone.value, form.responseLength, form.audioEnabled, "")
  }

  /** The branch `handleSave` takes. The form has a language and a tone: saving
      happens on step 2, which only a valid step 1 reaches. */
  function PlanSave(form: FormData, ui: UiStore.UiState): (r: SaveRequest)
    requires form.language.Some? && form.tone.Some?
    ensures r.Rejected? <==> !IsValidPercentage(form)
    ensures r.UpdateRequest? <==> IsValidPercentage(form) && ui.modalMode == Edit && ui.selectedAssistant.Some?
    ensures r.UpdateRequest? ==> r.id == ui.selectedAssistant.value.id && r.patch == FormPatch(form)
    ensures r.CreateRequest? ==> r.fields == FormFields(form)
  {
    if !IsValidPercentage(form) then Rejected
    else if ui.modalMode == Edit && ui.selectedAssistant.Some? then
      UpdateRequest(ui.selectedAssistant.value.id, FormPatch(form))
    else CreateRequest(FormFields(form))
  }

  /** `handleSave` end to end: the plan, the mutation it runs, and the
      `closeModal` after a success. `None` means no request was made; the
      creation id stands for the clock reading. */
  function SaveForm(w: Coordinator.World, form: FormData, freshId: string): (r: (Coordinator.World, Option<Result<Assistant>>))
    requires form.language.Some? && form.tone.Some?
    ensures !IsValidPercentage(form) ==> r == (w, None)
    ensures IsValidPercentage(form) ==> r.1.Some? && !r.0.client.ui.isModalOpen
    ensures IsValidPercentage(form) && w.client.ui.modalMode == Edit && w.client.ui.selectedAssistant.Some? ==>
              var id := w.client.ui.selectedAssistant.value.id;
              && r.0.store == Repository.Update(w.store, id, FormPatch(form)).store
              && (r.1.value.Err? <==> !HasId(w.store, id))
    ensures IsValidPercentage(form) && !(w.client.ui.modalMode == Edit && w.client.ui.selectedAssistant.Some?) ==>
              && r.0.store == w.store + [WithId(FormFields(form), freshId)]
              && r.1 == Some(Ok(r.0.store[|w.store|]))
  {
    match PlanSave(form, w.client.ui)
    case Rejected => (w, None)
    case UpdateRequest(id, patch) =>
      var (w1, reply) := Coordinator.RunUpdate(w, id, patch);
      var w2 := if reply.Ok? then w1.(client := w1.client.(ui := UiStore.CloseModal(w1.client.ui))) else w1;
      (w2, Some(reply))
    case CreateRequest(fields) =>
      var (w1, reply) := Coordinator.RunCreate(w, fields, freshId);
      var w2 := if reply.Ok? then w1.(client := w1.client.(ui := UiStore.CloseModal(w1.client.ui))) else w1;
      (w2, Some(reply))
  }

  // Properties of the modal.

  /** A blank form cannot pass step 1 but always has a saveable split; a form
      loaded from a well-formed assistant passes step 1 and can be saved as is. */
  lemma ResetLaws(a: Assistant)
    ensures !Step1Valid(BlankForm()) && IsValidPercentage(BlankForm()) && SlidersInRange(BlankForm())
    ensures IsValidPercentage(DefaultForm()) && SlidersInRange(DefaultForm())
    ensures SeedData.WellFormed(a) ==>
              Step1Valid(FromAssistant(a)) && IsValidPercentage(FromAssistant(a)) && SlidersInRange(FromAssistant(a))
  {
  }

  /** Opening the modal starts on step 1, and the step buttons keep a modal
      on step 2 only with a form that passed step 1. */
  lemma StepsKeepConsistency(form: FormData, ui: UiStore.UiState, mode: ModalMode, a: Option<Assistant>)
    ensures Consistent(ResetForm(form, UiStore.OpenModal(ui, mode, a)), UiStore.OpenModal(ui, mode, a))
    ensures Consistent(form, ui) ==> Consistent(form, HandleNextStep(form, ui))
    ensures Consistent(form, HandlePrevStep(ui))
    ensures ui.modalStep == 1 && !Step1Valid(form) ==> HandleNextStep(form, ui) == ui
  {
  }

  /** With the slider as written, saving stays enabled after an in-range
      move exactly when the move is not a shrink by an odd amount; the sliders
      stay in range whenever it does. */
  lemma SliderSaveEnabledIff(form: FormData, f: Allocator.Field, value: int)
    requires SlidersInRange(form) && IsValidPercentage(form) && 0 <= value <= 100
    ensures IsValidPercentage(SetSlider(form, f, value)) <==>
              !(value < Allocator.Get(form.responseLength, f) && (Allocator.Get(form.responseLength, f) - value) % 2 == 1)
    ensures IsValidPercentage(SetSlider(form, f, value)) ==> SlidersInRange(SetSlider(form, f, value))
  {
    var o := Allocator.Get(form.responseLength, f);
    if value < o && (o - value) % 2 == 1 {
      Allocator.OddShrinkOverflows(form.responseLength, f, value);
    } else {
      Allocator.AsWrittenValidIff(form.responseLength, f, value);
    }
  }

  /** With the corrected allocator, moving a slider within its range never
      disables saving. */
  lemma SliderKeepsSaveEnabled(form: FormData, f: Allocator.Field, value: int)
    requires SlidersInRange(form) && IsValidPercentage(form) && 0 <= value <= 100
    ensures SlidersInRange(SetSliderBalanced(form, f, value)) && IsValidPercentage(SetSliderBalanced(form, f, value))
  {
    Allocator.BalancedKeepsTotal(form.responseLength, f, value);
  }

  /** With the slider as written, an odd shrink leaves a split of 101 and the
      save is refused without any request; with the corrected slider the same
      move can be saved. */
  lemma OddShrinkBlocksSave(w: Coordinator.World, form: FormData, f: Allocator.Field, value: int, freshId: string)
    requires form.language.Some? && form.tone.Some?
    requires ValidSplit(form.responseLength)
    requires 0 <= value < Allocator.Get(form.responseLength, f)
    requires (Allocator.Get(form.responseLength, f) - value) % 2 == 1
    ensures SaveForm(w, SetSlider(form, f, value), freshId) == (w, None)
    ensures SaveForm(w, SetSliderBalanced(form, f, value), freshId).1.Some?
  {
    Allocator.OddShrinkOverflows(form.responseLength, f, value);
    Allocator.BalancedKeepsTotal(form.responseLength, f, value);
  }

  /** The save guard keeps the repository well formed: a form that passed
      step 1, with sliders in range, only reaches the repository when its
      split adds up to 100. */
  lemma SaveKeepsStoreWellFormed(w: Coordinator.World, form: FormData, freshId: string)
    requires Repository.AllWellFormed(w.store)
    requires Step1Valid(form) && SlidersInRange(form)
    ensures Repository.AllWellFormed(SaveForm(w, form, freshId).0.store)
  {
    if IsValidPercentage(form) {
      var ui := w.client.ui;
      if ui.modalMode == Edit && ui.selectedAssistant.Some? {
        Repository.UpdatePreservesInvariants(w.store, ui.selectedAssistant.value.id, FormPatch(form));
      } else {
        Repository.CreatePreservesInvariants(w.store, FormFields(form), freshId);
      }
    }
  }

  /** After a save, a cached list shows the repository's new contents, and a
      lookup by id finds the saved values: the edited record when the id
      exists, the created one when the clock id is new. */
  lemma SaveIsVisible(w: Coordinator.World, form: FormData, freshId: string)
    requires form.language.Some? && form.tone.Some? && IsValidPercentage(form)
    ensures var w' := SaveForm(w, form, freshId).0;
            w.client.cache.list.Some? ==> w'.client.cache.list == Some(w'.store)
    ensures var ui := w.client.ui;
            ui.modalMode == Edit && ui.selectedAssistant.Some? && HasId(w.store, ui.selectedAssistant.value.id) ==>
              var id := ui.selectedAssistant.value.id;
              Repository.GetById(SaveForm(w, form, freshId).0.store, id) ==
                Some(Merge(Repository.GetById(w.store, id).value, FormPatch(form)))
    ensures var ui := w.client.ui;
            !(ui.modalMode == Edit && ui.selectedAssistant.Some?) && !HasId(w.store, freshId) ==>
              Repository.GetById(SaveForm(w, form, freshId).0.store, freshId) == Some(WithId(FormFields(form), freshId))
  {
    var ui := w.client.ui;
    var store' := SaveForm(w, form, freshId).0.store;
    if ui.modalMode == Edit && ui.selectedAssistant.Some? {
      var id := ui.selectedAssistant.value.id;
      if HasId(w.store, id) {
        var k := FindIndex(w.store, id);
        assert Repository.FirstWithId(w.store, id, k);
        assert Repository.FirstWithId(store', id, k);
      }
    } else if !HasId(w.store, freshId) {
      assert Repository.FirstWithId(store', freshId, |w.store|);
    }
  }
}

=== FILE: coordinator.dfy ===
/** The mutation hooks: each repository mutation wrapped with the cache
    updates around it. The query cache is a black box reduced to the data it
    holds: the list query `["assistants"]` and the per-assistant detail queries
    `["assistants", id]`. Invalidation is an immediate refetch of every cached
    query under the key; request lifecycles are atomic steps. */
module Coordinator {
  import opened Types
  import opened Lists
  import Repository
  import UiStore

  /** `list` is the list query's data (None while undefined); `detail` maps
      each id whose detail query is cached to what `getById` returned. */
  datatype QueryCache = QueryCache(list: Option<seq<Assistant>>, detail: map<string, Option<Assistant>>)

  datatype Client = Client(cache: QueryCache, ui: UiStore.UiState)

  /** The repository and the client together. */
  datatype World = World(store: Repository.Store, client: Client)

  /** What `onMutate` hands to `onError`: the list before the optimistic step. */
  datatype Context = Context(previousAssistants: Option<seq<Assistant>>)

  // ---------------------------------------------------------------------------
  // Cache transforms

  /** The optimistic edit: every record with the id takes the present fields of
      the patch, the others stay; an undefined list stays undefined. */
  function OptimisticUpdate(list: Option<seq<Assistant>>, id: string, patch: Patch): (r: Option<seq<Assistant>>)
    ensures list.None? <==> r.None?
    ensures list.Some? ==> |r.value| == |list.value|
    ensures list.Some? ==> forall i :: 0 <= i < |list.value| && list.value[i].id != id ==> r.value[i] == list.value[i]
    ensures list.Some? ==> forall i :: 0 <= i < |list.value| && list.value[i].id == id ==> r.value[i] == Merge(list.value[i], patch)
  {
    match list
    case None => None
    case Some(l) => Some(MergeWhereId(l, id, patch))
  }

  /** The optimistic removal: every record with the id disappears, the rest
      keep their order. */
  function OptimisticDelete(list: Option<seq<Assistant>>, id: string): (r: Option<seq<Assistant>>)
    ensures list.None? <==> r.None?
    ensures list.Some? ==> !HasId(r.value, id)
    ensures list.Some? ==> forall a :: a in r.value <==> a in list.value && a.id != id
  {
    match list
    case None => None
    case Some(l) =>
      var kept := RemoveId(l, id);
      assert !HasId(kept, id) by {
        forall i | 0 <= i < |kept| ensures kept[i].id != id {
          assert kept[i] in kept;
        }
      }
      Some(kept)
  }

  /** After `updateRules` succeeds: the records carrying the returned record's
      id become that record, every other record is kept. */
  function ReplaceReturned(list: Option<seq<Assistant>>, updated: Assistant): (r: Option<seq<Assistant>>)
    ensures list.None? <==> r.None?
    ensures list.Some? ==> |r.value| == |list.value|
    ensures list.Some? ==> forall i :: 0 <= i < |list.value| ==>
              r.value[i] == (if list.value[i].id == updated.id then updated else list.value[i])
  {
    match list
    case None => None
    case Some(l) => Some(ReplaceWhereId(l, updated))
  }

  /** `onError`: a captured snapshot (even an empty list) is put back verbatim;
      without one the list is left as it is. */
  function Rollback(list: Option<seq<Assistant>>, ctx: Context): (r: Option<seq<Assistant>>)
    ensures ctx.previousAssistants.Some? ==> r == ctx.previousAssistants
    ensures ctx.previousAssistants.None? ==> r == list
  {
    if ctx.previousAssistants.Some? then ctx.previousAssistants else list
  }

  /** Invalidating the list key: the list query and every cached detail query
      are fetched again from the store; queries that were never cached stay so. */
  function InvalidateAll(cache: QueryCache, store: Repository.Store): (r: QueryCache)
    ensures cache.list.Some? ==> r.list == Some(store)
    ensures cache.list.None? ==> r.list.None?
    ensures r.detail.Keys == cache.detail.Keys
    ensures forall id :: id in r.detail ==> r.detail[id] == Repository.GetById(store, id)
  {
    QueryCache(
      if cache.list.Some? then Some(Repository.GetAll(store)) else None,
      map id | id in cache.detail :: Repository.GetById(store, id))
  }

  /** Invalidating the detail key of one assistant: only that detail query is
      fetched again, and only if it is cached. */
  function InvalidateDetail(cache: QueryCache, store: Repository.Store, id: string): (r: QueryCache)
    ensures r.list == cache.list && r.detail.Keys == cache.detail.Keys
    ensures id in cache.detail ==> r.detail[id] == Repository.GetById(store, id)
    ensures forall k :: k in cache.detail && k != id ==> r.detail[k] == cache.detail[k]
  {
    if id in cache.detail then cache.(detail := cache.detail[id := Repository.GetById(store, id)])
    else cache
  }

  // ---------------------------------------------------------------------------
  // useUpdateAssistant

  /** `onMutate`: snapshot the list, then apply the edit optimistically. */
  function BeginUpdate(c: Client, id: string, patch: Patch): (r: (Client, Context))
    ensures r.1.previousAssistants == c.cache.list
    ensures r.0.cache.list == OptimisticUpdate(c.cache.list, id, patch)
    ensures r.0.cache.detail == c.cache.detail && r.0.ui == c.ui
  {
    (c.(cache := c.cache.(list := OptimisticUpdate(c.cache.list, id, patch))),
     Context(c.cache.list))
  }

  function FailMutation(c: Client, ctx: Context): (r: Client)
    ensures r.cache.list == Rollback(c.cache.list, ctx)
    ensures r.cache.detail == c.cache.detail && r.ui == c.ui
  {
    c.(cache := c.cache.(list := Rollback(c.cache.list, ctx)))
  }

  /** `onSettled` of an edit, success or failure: refetch and close the modal. */
  function SettleUpdate(c: Client, store: Repository.Store): (r: Client)
    ensures r.cache == InvalidateAll(c.cache, store)
    ensures !r.ui.isModalOpen && r.ui.selectedAssistant.None? && r.ui.modalStep == 1
    ensures r.ui.modalMode == c.ui.modalMode
    ensures r.ui.chatHistory == c.ui.chatHistory && r.ui.assistantToDelete == c.ui.assistantToDelete
  {
    Client(InvalidateAll(c.cache, store), UiStore.CloseModal(c.ui))
  }

  /** The whole edit: optimistic step, repository call, rollback on error,
      settlement. The reply is what `mutateAsync` resolves or rejects with. */
  function RunUpdate(w: World, id: string, patch: Patch): (r: (World, Result<Assistant>))
    ensures r.0.store == Repository.Update(w.store, id, patch).store
    ensures r.1 == Repository.Update(w.store, id, patch).reply
    ensures r.1.Err? <==> !HasId(w.store, id)
    ensures r.0.client.cache == InvalidateAll(w.client.cache, r.0.store)
    ensures r.0.client.ui == UiStore.CloseModal(w.client.ui)
  {
    var (c1, ctx) := BeginUpdate(w.client, id, patch);
    var resp := Repository.Update(w.store, id, patch);
    var c2 := if resp.reply.Err? then FailMutation(c1, ctx) else c1;
    (World(resp.store, SettleUpdate(c2, resp.store)), resp.reply)
  }

  /** A failed edit rolls the list back to exactly what it was before the
      optimistic step: the edit leaves no trace, not even a partial merge. */
  lemma FailedUpdateRestoresSnapshot(c: Client, id: string, patch: Patch)
    ensures var (c1, ctx) := BeginUpdate(c, id, patch);
            FailMutation(c1, ctx) == c
  {
  }

  /** With unique ids and a synced list, the optimistic edit predicts the
      repository's result exactly. */
  lemma OptimisticUpdatePredictsRepository(store: Repository.Store, id: string, patch: Patch)
    requires UniqueIds(store) && HasId(store, id)
    ensures OptimisticUpdate(Some(store), id, patch) == Some(Repository.Update(store, id, patch).store)
  {
    var k := FindIndex(store, id);
    assert Repository.FirstWithId(store, id, k);
    var predicted := OptimisticUpdate(Some(store), id, patch).value;
    var actual := Repository.Update(store, id, patch).store;
    assert |predicted| == |actual|;
    forall i | 0 <= i < |store| ensures predicted[i] == actual[i] {
      if i != k {
        assert store[i].id != id;
      }
    }
    assert predicted == actual;
  }

  /** With duplicate ids the prediction and the repository disagree: the cache
      patches every copy, the repository only the first. */
  lemma DuplicateIdsBreakPrediction()
    ensures var a := Assistant("1", "Uno", Spanish, Formal, ResponseLength(33, 34, 33), false, "");
            var store := [a, a];
            var patch := EmptyPatch.(name := Some("Dos"));
            OptimisticUpdate(Some(store), "1", patch) != Some(Repository.Update(store, "1", patch).store)
  {
    var a := Assistant("1", "Uno", Spanish, Formal, ResponseLength(33, 34, 33), false, "");
    var store := [a, a];
    var patch := EmptyPatch.(name := Some("Dos"));
    assert Repository.FirstWithId(store, "1", 0);
    var actual := Repository.Update(store, "1", patch).store;
    assert actual[1] == a;
    assert OptimisticUpdate(Some(store), "1", patch).value[1].name == "Dos";
  }

  /** An edit of an id the repository no longer has: right after the failure
      the list is the pre-edit snapshot, and after settlement it is the
      repository's unchanged contents. */
  lemma UpdateOfVanishedId(w: World, id: string, patch: Patch)
    requires !HasId(w.store, id) && w.client.cache.list.Some?
    ensures var (c1, ctx) := BeginUpdate(w.client, id, patch);
            FailMutation(c1, ctx).cache.list == w.client.cache.list
    ensures RunUpdate(w, id, patch).0.store == w.store
    ensures RunUpdate(w, id, patch).0.client.cache.list == Some(w.store)
  {
  }

  // ---------------------------------------------------------------------------
  // useDeleteAssistant

  function BeginDelete(c: Client, id: string): (r: (Client, Context))
    ensures r.1.previousAssistants == c.cache.list
    ensures r.0.cache.list == OptimisticDelete(c.cache.list, id)
    ensures r.0.cache.detail == c.cache.detail && r.0.ui == c.ui
  {
    (c.(cache := c.cache.(list := OptimisticDelete(c.cache.list, id))), Context(c.cache.list))
  }

  /** `onSettled` of a delete: refetch and forget the confirmation target. */
  function SettleDelete(c: Client, store: Repository.Store): (r: Client)
    ensures r.cache == InvalidateAll(c.cache, store)
    ensures r.ui.assistantToDelete.None?
    ensures r.ui.(assistantToDelete := c.ui.assistantToDelete) == c.ui
  {
    Client(InvalidateAll(c.cache, store), UiStore.SetAssistantToDelete(c.ui, None))
  }

  function RunDelete(w: World, id: string, shouldFail: bool): (r: (World, Result<()>))
    ensures r.0.store == Repository.Delete(w.store, id, shouldFail).store
    ensures r.1 == Repository.Delete(w.store, id, shouldFail).reply
    ensures r.1.Err? <==> shouldFail
    ensures r.0.client.cache == InvalidateAll(w.client.cache, r.0.store)
    ensures r.0.client.ui == UiStore.SetAssistantToDelete(w.client.ui, None)
  {
    var (c1, ctx) := BeginDelete(w.client, id);
    var resp := Repository.Delete(w.store, id, shouldFail);
    var c2 := if resp.reply.Err? then FailMutation(c1, ctx) else c1;
    (World(resp.store, SettleDelete(c2, resp.store)), resp.reply)
  }

  lemma FailedDeleteRestoresSnapshot(c: Client, id: string)
    ensures var (c1, ctx) := BeginDelete(c, id);
            FailMutation(c1, ctx) == c
  {
  }

  /** A successful delete is exactly what the optimistic step predicted. */
  lemma OptimisticDeletePredictsRepository(store: Repository.Store, id: string)
    ensures OptimisticDelete(Some(store), id) == Some(Repository.Delete(store, id, false).store)
  {
  }

  /** End to end: after a failed delete and the refetch, the record is still
      listed; after a successful one, no record with the id is. */
  lemma DeleteOutcomeAfterResync(w: World, a: Assistant, shouldFail: bool)
    requires a in w.store && w.client.cache.list.Some?
    ensures var list := RunDelete(w, a.id, shouldFail).0.client.cache.list;
            list.Some? && (shouldFail ==> a in list.value) && (!shouldFail ==> !HasId(list.value, a.id))
  {
  }

  // ---------------------------------------------------------------------------
  // useCreateAssistant

  /** Creation is not optimistic: the cache is only refetched, and the modal
      closed, once the repository has answered (it never fails). */
  function RunCreate(w: World, fields: AssistantFields, freshId: string): (r: (World, Result<Assistant>))
    ensures r.0.store == w.store + [WithId(fields, freshId)]
    ensures r.1 == Ok(WithId(fields, freshId))
    ensures r.0.client.cache == InvalidateAll(w.client.cache, r.0.store)
    ensures r.0.client.ui == UiStore.CloseModal(w.client.ui)
  {
    var resp := Repository.Create(w.store, fields, freshId);
    var c := if resp.reply.Ok? then Client(InvalidateAll(w.client.cache, resp.store), UiStore.CloseModal(w.client.ui))
             else w.client;
    (World(resp.store, c), resp.reply)
  }

  // ---------------------------------------------------------------------------
  // useUpdateRules

  /** Not optimistic either: on success the returned record replaces its
      namesakes in the list and only its own detail query is refetched; on
      failure the client is untouched. */
  function RunUpdateRules(w: World, id: string, rules: string): (r: (World, Result<Assistant>))
    ensures r.0.store == Repository.UpdateRules(w.store, id, rules).store
    ensures r.1 == Repository.UpdateRules(w.store, id, rules).reply
    ensures r.1.Err? <==> !HasId(w.store, id)
    ensures r.1.Err? ==> r.0 == w
    ensures r.1.Ok? ==> r.1.value.id == id && r.1.value.rules == rules
    ensures r.1.Ok? ==> r.0.client.ui == w.client.ui
    ensures r.1.Ok? ==> r.0.client.cache.list == ReplaceReturned(w.client.cache.list, r.1.value)
    ensures r.1.Ok? ==> r.0.client.cache.detail.Keys == w.client.cache.detail.Keys
    ensures r.1.Ok? && id in w.client.cache.detail ==>
              r.0.client.cache.detail[id] == Repository.GetById(r.0.store, id)
    ensures r.1.Ok? ==> forall k :: k in w.client.cache.detail && k != id ==>
              r.0.client.cache.detail[k] == w.client.cache.detail[k]
  {
    var resp := Repository.UpdateRules(w.store, id, rules);
    match resp.reply
    case Err(_) => (World(resp.store, w.client), resp.reply)
    case Ok(updated) =>
      assert Repository.FirstWithId(w.store, id, FindIndex(w.store, id));
      var list := ReplaceReturned(w.client.cache.list, updated);
      var cache := InvalidateDetail(w.client.cache.(list := list), resp.store, updated.id);
      (World(resp.store, w.client.(cache := cache)), resp.reply)
  }

  /** When the list is in sync and ids are unique, the rules update keeps it
      in sync without a refetch. */
  lemma UpdateRulesKeepsListInSync(w: World, id: string, rules: string)
    requires w.client.cache.list == Some(w.store) && UniqueIds(w.store)
    ensures var w' := RunUpdateRules(w, id, rules).0;
            w'.client.cache.list == Some(w'.store)
  {
    var (w', reply) := RunUpdateRules(w, id, rules);
    if reply.Ok? {
      var k := FindIndex(w.store, id);
      assert Repository.FirstWithId(w.store, id, k);
      var list := w'.client.cache.list.value;
      assert |list| == |w'.store|;
      forall i | 0 <= i < |list| ensures list[i] == w'.store[i] {
        if i != k {
          assert w.store[i].id != id;
        }
      }
      assert list == w'.store;
    }
  }
}

=== FILE: lists.dfy ===
/** List operations over assistant records keyed by id. Both the in-memory
    repository and the optimistic cache are plain arrays searched by id; ids
    are NOT assumed unique, so every operation says what it does to each of
    several records that share an id. */
module Lists {
  import opened Types

  predicate HasId(s: seq<Assistant>, id: string) {
    exists i :: 0 <= i < |s| && s[i].id == id
  }

  /** Ids occur at most once. The seed data has this property; nothing in the
      code keeps it. */
  predicate UniqueIds(s: seq<Assistant>) {
    forall i, j :: 0 <= i < j < |s| ==> s[i].id != s[j].id
  }

  /** `findIndex`: the position of the first record with the id, or -1. */
  function FindIndex(s: seq<Assistant>, id: string): (r: int)
    ensures -1 <= r < |s|
    ensures r == -1 <==> !HasId(s, id)
    ensures 0 <= r ==> s[r].id == id && forall j :: 0 <= j < r ==> s[j].id != id
  {
    if |s| == 0 then -1
    else if s[0].id == id then 0
    else
      var k := FindIndex(s[1..], id);
      if k == -1 then
        assert forall i :: 1 <= i < |s| ==> s[i] == s[1..][i - 1];
        -1
      else
        assert forall j :: 1 <= j < k + 1 ==> s[j] == s[1..][j - 1];
        k + 1
  }

  /** The records whose id differs from `id`, in their original order. */
  function RemoveId(s: seq<Assistant>, id: string): (r: seq<Assistant>)
    ensures |r| <= |s|
    ensures forall a :: a in r <==> a in s && a.id != id
  {
    if |s| == 0 then []
    else if s[0].id == id then RemoveId(s[1..], id)
    else [s[0]] + RemoveId(s[1..], id)
  }

  /** Filtering distributes over concatenation: the survivors of `a` come
      before the survivors of `b`, so the relative order of the kept records
      is that of the input. */
  lemma {:induction false} RemoveIdAppend(a: seq<Assistant>, b: seq<Assistant>, id: string)
    ensures RemoveId(a + b, id) == RemoveId(a, id) + RemoveId(b, id)
    decreases |a|
  {
    if |a| == 0 {
      assert a + b == b;
    } else {
      assert (a + b)[1..] == a[1..] + b;
      RemoveIdAppend(a[1..], b, id);
    }
  }

  /** Filtering out an id that does not occur changes nothing. */
  lemma {:induction false} RemoveAbsentId(s: seq<Assistant>, id: string)
    requires !HasId(s, id)
    ensures RemoveId(s, id) == s
    decreases |s|
  {
    if |s| > 0 {
      assert !HasId(s[1..], id) by {
        forall i | 0 <= i < |s[1..]| ensures s[1..][i].id != id {
          assert s[1..][i] == s[i + 1];
        }
      }
      RemoveAbsentId(s[1..], id);
      assert s == [s[0]] + s[1..];
    }
  }

  /** Removal is idempotent: a second delete of the same id finds nothing. */
  lemma RemoveIdIdempotent(s: seq<Assistant>, id: string)
    ensures RemoveId(RemoveId(s, id), id) == RemoveId(s, id)
  {
    var r := RemoveId(s, id);
    assert !HasId(r, id) by {
      forall i | 0 <= i < |r| ensures r[i].id != id {
        assert r[i] in r;
      }
    }
    RemoveAbsentId(r, id);
  }

  /** Every record with the id is patched, every other record is kept, length and order stay. */
  function MergeWhereId(s: seq<Assistant>, id: string, patch: Patch): (r: seq<Assistant>)
    ensures |r| == |s|
    ensures forall i :: 0 <= i < |s| ==> r[i] == (if s[i].id == id then Merge(s[i], patch) else s[i])
  {
    seq(|s|, i requires 0 <= i < |s| => if s[i].id == id then Merge(s[i], patch) else s[i])
  }

  /** Every record sharing the id of `updated` is replaced by it; the others stay. */
  function ReplaceWhereId(s: seq<Assistant>, updated: Assistant): (r: seq<Assistant>)
    ensures |r| == |s|
    ensures forall i :: 0 <= i < |s| ==> r[i] == (if s[i].id == updated.id then updated else s[i])
  {
    seq(|s|, i requires 0 <= i < |s| => if s[i].id == updated.id then updated else s[i])
  }
}

=== FILE: repository.dfy ===
/** The in-memory assistant service: an array of records that every operation
    reads or rewrites. Latency is left out; the two sources of nondeterminism
    become parameters: the id `Date.now()` would produce for `create`, and the
    outcome of the 10% failure draw for `delete`. */
module Repository {
  import opened Types
  import opened Lists
  import SeedData

  type Store = seq<Assistant>

  /** The store after an operation, and what the operation returned or threw. */
  datatype Response<+T> = Response(store: Store, reply: Result<T>)

  const NotFoundMessage := "Asistente no encontrado"
  const DeleteFailedMessage := "Error al eliminar el asistente. Por favor, intenta de nuevo."

  /** `k` is the position `findIndex` reports for `id`. */
  predicate FirstWithId(s: Store, id: string, k: int) {
    0 <= k < |s| && s[k].id == id && forall j :: 0 <= j < k ==> s[j].id != id
  }

  predicate AllWellFormed(s: Store) {
    forall i :: 0 <= i < |s| ==> SeedData.WellFormed(s[i])
  }

  /** The store starts as a copy of the seed records. */
  function InitialStore(): (s: Store)
    ensures |s| == 3 && AllWellFormed(s) && UniqueIds(s)
  {
    SeedData.InitialAssistants()
  }

  /** `getAll`: a copy of the whole store, in store order. */
  function GetAll(store: Store): (r: seq<Assistant>)
    ensures r == store
  {
    store[..]
  }

  /** `getById`: the first record with the id, or null. */
  function GetById(store: Store, id: string): (r: Option<Assistant>)
    ensures r.None? <==> !HasId(store, id)
    ensures forall k :: FirstWithId(store, id, k) ==> r == Some(store[k])
  {
    var k := FindIndex(store, id);
    if k == -1 then None else Some(store[k])
  }

  /** `create`: appends the fields under the supplied id and returns the new record. */
  function Create(store: Store, fields: AssistantFields, freshId: string): (r: Response<Assistant>)
    ensures |r.store| == |store| + 1
    ensures r.store[..|store|] == store
    ensures r.reply.Ok? && r.reply.value == r.store[|store|]
    ensures r.store[|store|].id == freshId
    ensures r.store[|store|] == WithId(fields, freshId)
  {
    var created := WithId(fields, freshId);
    Response(store + [created], Ok(created))
  }

  /** `update`: merges the patch into the first record with the id. */
  function Update(store: Store, id: string, patch: Patch): (r: Response<Assistant>)
    ensures !HasId(store, id) ==> r == Response(store, Err(NotFoundMessage))
    ensures HasId(store, id) ==> r.reply.Ok? && |r.store| == |store|
    ensures forall k :: FirstWithId(store, id, k) ==>
              && r.store[k] == Merge(store[k], patch)
              && r.reply == Ok(r.store[k])
              && forall j :: 0 <= j < |store| && j != k ==> r.store[j] == store[j]
  {
    var k := FindIndex(store, id);
    if k == -1 then Response(store, Err(NotFoundMessage))
    else
      var merged := Merge(store[k], patch);
      Response(store[k := merged], Ok(merged))
  }

  /** `delete`: when the failure draw fires nothing changes and the call
      throws; otherwise every record with the id is dropped. */
  function Delete(store: Store, id: string, shouldFail: bool): (r: Response<()>)
    ensures shouldFail ==> r == Response(store, Err(DeleteFailedMessage))
    ensures !shouldFail ==> r.reply == Ok(()) && !HasId(r.store, id)
    ensures !shouldFail ==> forall a :: a in r.store <==> a in store && a.id != id
    ensures !shouldFail && !HasId(store, id) ==> r.store == store
  {
    if shouldFail then Response(store, Err(DeleteFailedMessage))
    else
      var kept := RemoveId(store, id);
      assert !HasId(kept, id) by {
        forall i | 0 <= i < |kept| ensures kept[i].id != id {
          assert kept[i] in kept;
        }
      }
      if !HasId(store, id) then RemoveAbsentId(store, id); Response(kept, Ok(()))
      else Response(kept, Ok(()))
  }

  /** `updateRules`: overwrites only the rules of the first record with the id. */
  function UpdateRules(store: Store, id: string, rules: string): (r: Response<Assistant>)
    ensures !HasId(store, id) ==> r == Response(store, Err(NotFoundMessage))
    ensures HasId(store, id) ==> r.reply.Ok? && |r.store| == |store|
    ensures forall k :: FirstWithId(store, id, k) ==>
              && r.store[k] == store[k].(rules := rules)
              && r.reply == Ok(r.store[k])
              && forall j :: 0 <= j < |store| && j != k ==> r.store[j] == store[j]
  {
    var k := FindIndex(store, id);
    if k == -1 then Response(store, Err(NotFoundMessage))
    else
      var updated := store[k].(rules := rules);
      Response(store[k := updated], Ok(updated))
  }

  /** `updateRules` is `update` with a patch that only carries the rules. */
  lemma UpdateRulesIsRulesPatch(store: Store, id: string, rules: string)
    ensures UpdateRules(store, id, rules) ==
            Update(store, id, EmptyPatch.(rules := Some(rules)))
  {
  }

  /** Record-level validity is kept by every operation whose inputs are valid.
      Ids are another matter: `create` keeps them unique only when the
      supplied id is new, which the clock-based id does not guarantee. */
  lemma CreatePreservesInvariants(store: Store, fields: AssistantFields, freshId: string)
    requires AllWellFormed(store)
    requires |fields.name| >= 3 && ValidSplit(fields.responseLength)
    ensures AllWellFormed(Create(store, fields, freshId).store)
    ensures UniqueIds(store) && !HasId(store, freshId) ==> UniqueIds(Create(store, fields, freshId).store)
  {
    var s' := Create(store, fields, freshId).store;
    assert forall i :: 0 <= i < |store| ==> s'[i] == store[i];
  }

  /** A repeated clock value breaks id uniqueness. */
  lemma CreateWithTakenIdDuplicates(store: Store, fields: AssistantFields, freshId: string)
    requires HasId(store, freshId)
    ensures !UniqueIds(Create(store, fields, freshId).store)
  {
    var s' := Create(store, fields, freshId).store;
    var i :| 0 <= i < |store| && store[i].id == freshId;
    assert s'[i] == store[i];
    assert s'[i].id == s'[|store|].id;
  }

  lemma UpdatePreservesInvariants(store: Store, id: string, patch: Patch)
    requires AllWellFormed(store)
    requires patch.name.Some? ==> |patch.name.value| >= 3
    requires patch.responseLength.Some? ==> ValidSplit(patch.responseLength.value)
    ensures AllWellFormed(Update(store, id, patch).store)
    ensures UniqueIds(store) && patch.id.None? ==> UniqueIds(Update(store, id, patch).store)
  {
    if HasId(store, id) {
      var k := FindIndex(store, id);
      assert FirstWithId(store, id, k);
    }
  }

  lemma DeletePreservesInvariants(store: Store, id: string, shouldFail: bool)
    requires AllWellFormed(store)
    ensures AllWellFormed(Delete(store, id, shouldFail).store)
    ensures UniqueIds(store) ==> UniqueIds(Delete(store, id, shouldFail).store)
  {
    var s' := Delete(store, id, shouldFail).store;
    assert forall i :: 0 <= i < |s'| ==> s'[i] in store;
    if UniqueIds(store) && !shouldFail {
      RemoveIdKeepsUnique(store, id);
    }
  }

  lemma {:induction false} RemoveIdKeepsUnique(s: Store, id: string)
    requires UniqueIds(s)
    ensures UniqueIds(RemoveId(s, id))
    decreases |s|
  {
    if |s| > 0 {
      assert UniqueIds(s[1..]) by {
        forall i, j | 0 <= i < j < |s[1..]| ensures s[1..][i].id != s[1..][j].id {
          assert s[1..][i] == s[i + 1] && s[1..][j] == s[j + 1];
        }
      }
      RemoveIdKeepsUnique(s[1..], id);
      var rest := RemoveId(s[1..], id);
      if s[0].id != id {
        var r := [s[0]] + rest;
        forall i, j | 0 <= i < j < |r| ensures r[i].id != r[j].id {
          if i == 0 {
            assert r[j] in rest;
            assert r[j] in s[1..];
            var m :| 0 <= m < |s[1..]| && s[1..][m] == r[j];
            assert s[m + 1] == r[j];
          } else {
            assert r[i] == rest[i - 1] && r[j] == rest[j - 1];
          }
        }
      }
    }
  }

  lemma UpdateRulesPreservesInvariants(store: Store, id: string, rules: string)
    requires AllWellFormed(store)
    ensures AllWellFormed(UpdateRules(store, id, rules).store)
    ensures UniqueIds(store) ==> UniqueIds(UpdateRules(store, id, rules).store)
  {
    UpdateRulesIsRulesPatch(store, id, rules);
    UpdatePreservesInvariants(store, id, EmptyPatch.(rules := Some(rules)));
  }
}

=== FILE: seed_data.dfy ===
/** The three seed assistants the repository starts with, and the canned
    replies the chat simulator draws from. */
module SeedData {
  import opened Types
  import opened Lists

  /** A record as the create/edit form would let it be saved: a name of at
      least three characters and a split that adds up to 100. */
  predicate WellFormed(a: Assistant) {
    |a.name| >= 3 && ValidSplit(a.responseLength)
  }

  const SalesRules := "Eres un asistente especializado en ventas. Siempre sé cordial y enfócate en identificar necesidades del cliente antes de ofrecer productos."
  const SupportRules := "You help resolve technical problems clearly and step by step.Always confirm that the user understands before continuing"
  const FinanceRules := "Aconselhar os clientes sobre suas necessidades financeiras. Manter um tom profissional, porém acessível, e garantir que os clientes tenham todas as informações necessárias para tomar decisões bem fundamentadas."

  function InitialAssistants(): (r: seq<Assistant>)
    ensures |r| == 3
    ensures forall i :: 0 <= i < |r| ==> WellFormed(r[i])
    ensures UniqueIds(r)
    ensures r[0].id == "1" && r[1].id == "2" && r[2].id == "3"
  {
    var a := Assistant("1", "Asistente de Ventas", Spanish, Professional,
                       ResponseLength(30, 50, 20), true, SalesRules);
    var b := Assistant("2", "Technical Support", English, Friendly,
                       ResponseLength(20, 30, 50), false, SupportRules);
    var c := Assistant("3", "Assistente Financeiro", Portuguese, Casual,
                       ResponseLength(20, 30, 50), false, FinanceRules);
    assert a.id[0] == '1' && b.id[0] == '2' && c.id[0] == '3';
    [a, b, c]
  }

  /** Canned replies keyed by language name. */
  function SimulatedResponses(): (m: map<string, seq<string>>)
    ensures forall l: Language :: LanguageName(l) in m && |m[LanguageName(l)]| == 4
    ensures |m.Keys| == 3
  {
    map[
      "Español" := [
        "Entendido, ¿en qué más puedo ayudarte?",
        "Esa es una excelente pregunta. Déjame explicarte...",
        "Claro, con gusto te ayudo con eso.",
        "¿Podrías darme más detalles sobre tu consulta?"],
      "Inglés" := [
        "Understood, how else can I help you?",
        "That's an excellent question. Let me explain...",
        "Sure, I can help you with that.",
        "Could you provide more details about your request?"],
      "Portugués" := [
        "Entendido. Como posso ajudar?",
        "Essa é uma ótima pergunta. Deixe-me explicar...",
        "Claro, posso ajudá-lo com isso.",
        "Você poderia me fornecer mais detalhes sobre sua solicitação?"]
    ]
  }

  const Fallback := "..."

  /** The index a draw in [0, 1) picks among `n` replies: the draw scaled by
      `n`, rounded down. */
  function DrawIndex(rand: real, n: nat): (i: nat)
    requires 0.0 <= rand < 1.0 && n > 0
    ensures i < n
  {
    var x := rand * n as real;
    assert x < n as real;
    x.Floor
  }

  /** A reply for a language name; `rand` stands for `Math.random()`. Unknown
      languages, and languages with no replies, get the fallback. */
  function GetRandomResponse(language: string, rand: real): (r: string)
    requires 0.0 <= rand < 1.0
    ensures language !in SimulatedResponses() || |SimulatedResponses()[language]| == 0 ==> r == Fallback
    ensures language in SimulatedResponses() && |SimulatedResponses()[language]| > 0 ==>
              r in SimulatedResponses()[language]
  {
    var table := SimulatedResponses();
    if language !in table || |table[language]| == 0 then Fallback
    else table[language][DrawIndex(rand, |table[language]|)]
  }

  /** Every reply of a language can come out: the draw `i / n` picks index `i`. */
  lemma EveryReplyReachable(l: Language, i: nat)
    requires i < |SimulatedResponses()[LanguageName(l)]|
    ensures GetRandomResponse(LanguageName(l), i as real / 4.0) == SimulatedResponses()[LanguageName(l)][i]
  {
    var x := (i as real / 4.0) * 4.0;
    assert x == i as real;
  }

  /** For the languages an assistant can have, the fallback never shows. */
  lemma KnownLanguageNeverFallsBack(l: Language, rand: real)
    requires 0.0 <= rand < 1.0
    ensures GetRandomResponse(LanguageName(l), rand) != Fallback
  {
    var replies := SimulatedResponses()[LanguageName(l)];
    var r := GetRandomResponse(LanguageName(l), rand);
    assert r in replies;
    match l
    case Spanish =>
      assert forall k :: 0 <= k < |replies| ==> |replies[k]| > 3;
    case English =>
      assert forall k :: 0 <= k < |replies| ==> |replies[k]| > 3;
    case Portuguese =>
      assert forall k :: 0 <= k < |replies| ==> |replies[k]| > 3;
  }
}

=== FILE: types.dfy ===
/** Records shared by every part of the assistant manager: the assistant profile,
    its response-length split, chat messages and the partial updates that the
    repository and the optimistic cache both merge into a profile. */
module Types {

  datatype Option<+T> = None | Some(value: T)

  /** An operation that either succeeds with a value or is rejected with the
      message of the error it throws. */
  datatype Result<+T> = Ok(value: T) | Err(message: string)

  datatype Language = Spanish | English | Portuguese

  /** The wire name of a language, which is also the key of the canned replies. */
  function LanguageName(l: Language): (s: string)
    ensures |s| > 0
  {
    match l
    case Spanish => "Español"
    case English => "Inglés"
    case Portuguese => "Portugués"
  }

  lemma LanguageNameInjective(l: Language, m: Language)
    ensures LanguageName(l) == LanguageName(m) <==> l == m
  {
    if l != m {
      var i := if LanguageName(l)[0] != LanguageName(m)[0] then 0 else 1;
      assert LanguageName(l)[i] != LanguageName(m)[i];
    }
  }

  /** The tones, whose values in the program are "Formal", "Casual",
      "Profesional" (Professional) and "Amigable" (Friendly). */
  datatype Tone = Formal | Casual | Professional | Friendly

  /** Percentages of short, medium and long replies. */
  datatype ResponseLength = ResponseLength(short: int, medium: int, long: int)

  function Total(rl: ResponseLength): int {
    rl.short + rl.medium + rl.long
  }

  /** The persisted invariant of a split: three percentages that add up to 100. */
  predicate ValidSplit(rl: ResponseLength) {
    && 0 <= rl.short <= 100
    && 0 <= rl.medium <= 100
    && 0 <= rl.long <= 100
    && Total(rl) == 100
  }

  datatype Assistant = Assistant(
    id: string,
    name: string,
    language: Language,
    tone: Tone,
    responseLength: ResponseLength,
    audioEnabled: bool,
    rules: string)

  /** An assistant without its id: what `create` receives. */
  datatype AssistantFields = AssistantFields(
    name: string,
    language: Language,
    tone: Tone,
    responseLength: ResponseLength,
    audioEnabled: bool,
    rules: string)

  function WithId(fields: AssistantFields, id: string): (a: Assistant)
    ensures a.id == id && a.name == fields.name && a.rules == fields.rules
    ensures a.language == fields.language && a.tone == fields.tone
    ensures a.responseLength == fields.responseLength && a.audioEnabled == fields.audioEnabled
  {
    Assistant(id, fields.name, fields.language, fields.tone,
              fields.responseLength, fields.audioEnabled, fields.rules)
  }

  /** A partial assistant: each present field overwrites the record's own, as
      an object spread does. Even the id may be replaced. */
  datatype Patch = Patch(
    id: Option<string>,
    name: Option<string>,
    language: Option<Language>,
    tone: Option<Tone>,
    responseLength: Option<ResponseLength>,
    audioEnabled: Option<bool>,
    rules: Option<string>)

  function Pick<T>(patched: Option<T>, kept: T): T {
    match patched
    case Some(v) => v
    case None => kept
  }

  /** Every field present in `p` wins, the rest are kept. */
  function Merge(a: Assistant, p: Patch): (r: Assistant)
    ensures p.id.Some? ==> r.id == p.id.value
    ensures p.id.None? ==> r.id == a.id
    ensures p.name.Some? ==> r.name == p.name.value
    ensures p.name.None? ==> r.name == a.name
    ensures p.language.Some? ==> r.language == p.language.value
    ensures p.language.None? ==> r.language == a.language
    ensures p.tone.Some? ==> r.tone == p.tone.value
    ensures p.tone.None? ==> r.tone == a.tone
    ensures p.responseLength.Some? ==> r.responseLength == p.responseLength.value
    ensures p.responseLength.None? ==> r.responseLength == a.responseLength
    ensures p.audioEnabled.Some? ==> r.audioEnabled == p.audioEnabled.value
    ensures p.audioEnabled.None? ==> r.audioEnabled == a.audioEnabled
    ensures p.rules.Some? ==> r.rules == p.rules.value
    ensures p.rules.None? ==> r.rules == a.rules
  {
    Assistant(
      Pick(p.id, a.id),
      Pick(p.name, a.name),
      Pick(p.language, a.language),
      Pick(p.tone, a.tone),
      Pick(p.responseLength, a.responseLength),
      Pick(p.audioEnabled, a.audioEnabled),
      Pick(p.rules, a.rules))
  }

  const EmptyPatch := Patch(None, None, None, None, None, None, None)

  /** Merging nothing leaves a record as it was, and merging a patch twice
      is the same as merging it once. */
  lemma MergeLaws(a: Assistant, p: Patch)
    ensures Merge(a, EmptyPatch) == a
    ensures Merge(Merge(a, p), p) == Merge(a, p)
  {
  }

  datatype Role = User | AssistantRole

  /** A chat message; the timestamp is kept as milliseconds since the epoch. */
  datatype ChatMessage = ChatMessage(id: string, role: Role, content: string, timestamp: int)

  datatype ModalMode = Create | Edit

  /** The modal has two steps: basic data, then response configuration. */
  type ModalStep = s: int | s == 1 || s == 2 witness 1
}

=== FILE: ui_store.dfy ===
/** The client-side UI state: which assistant is selected, the create/edit
    modal, per-assistant chat histories and the pending delete confirmation.
    Each action is a record-to-record update that touches only its own fields. */
module UiStore {
  import opened Types

  datatype UiState = UiState(
    selectedAssistant: Option<Assistant>,
    isModalOpen: bool,
    modalMode: ModalMode,
    modalStep: ModalStep,
    chatHistory: map<string, seq<ChatMessage>>,
    assistantToDelete: Option<Assistant>)

  function Initial(): (s: UiState)
    ensures !s.isModalOpen && s.modalMode == Create && s.modalStep == 1
    ensures s.selectedAssistant.None? && s.assistantToDelete.None?
    ensures |s.chatHistory| == 0
  {
    UiState(None, false, Create, 1, map[], None)
  }

  /** The history of an assistant; an assistant without one has an empty history. */
  function History(s: UiState, id: string): seq<ChatMessage> {
    if id in s.chatHistory then s.chatHistory[id] else []
  }

  function SetSelectedAssistant(s: UiState, a: Option<Assistant>): (r: UiState)
    ensures r.selectedAssistant == a
    ensures r.(selectedAssistant := s.selectedAssistant) == s
  {
    s.(selectedAssistant := a)
  }

  /** `openModal(mode, assistant?)`: opens at step 1; a missing assistant
      clears the selection. */
  function OpenModal(s: UiState, mode: ModalMode, a: Option<Assistant>): (r: UiState)
    ensures r.isModalOpen && r.modalMode == mode && r.modalStep == 1
    ensures r.selectedAssistant == a
    ensures r.chatHistory == s.chatHistory && r.assistantToDelete == s.assistantToDelete
  {
    s.(isModalOpen := true, modalMode := mode, modalStep := 1, selectedAssistant := a)
  }

  /** `closeModal`: closed, back to step 1, nothing selected; the mode, chat
      histories and delete target are kept. */
  function CloseModal(s: UiState): (r: UiState)
    ensures !r.isModalOpen && r.modalStep == 1 && r.selectedAssistant.None?
    ensures r.modalMode == s.modalMode
    ensures r.chatHistory == s.chatHistory && r.assistantToDelete == s.assistantToDelete
  {
    s.(isModalOpen := false, modalStep := 1, selectedAssistant := None)
  }

  function SetModalStep(s: UiState, step: ModalStep): (r: UiState)
    ensures r.modalStep == step
    ensures r.(modalStep := s.modalStep) == s
  {
    s.(modalStep := step)
  }

  /** `addChatMessage(id, m)`: appends to that assistant's history only. */
  function AddChatMessage(s: UiState, id: string, m: ChatMessage): (r: UiState)
    ensures History(r, id) == History(s, id) + [m]
    ensures r.chatHistory.Keys == s.chatHistory.Keys + {id}
    ensures forall k :: k in s.chatHistory && k != id ==> r.chatHistory[k] == s.chatHistory[k]
    ensures r.(chatHistory := s.chatHistory) == s
  {
    s.(chatHistory := s.chatHistory[id := History(s, id) + [m]])
  }

  /** `clearChatHistory(id)`: that assistant's history becomes empty (the key
      stays, holding an empty list); all others are kept. */
  function ClearChatHistory(s: UiState, id: string): (r: UiState)
    ensures id in r.chatHistory && History(r, id) == []
    ensures r.chatHistory.Keys == s.chatHistory.Keys + {id}
    ensures forall k :: k in s.chatHistory && k != id ==> r.chatHistory[k] == s.chatHistory[k]
    ensures r.(chatHistory := s.chatHistory) == s
  {
    s.(chatHistory := s.chatHistory[id := []])
  }

  function SetAssistantToDelete(s: UiState, a: Option<Assistant>): (r: UiState)
    ensures r.assistantToDelete == a
    ensures r.(assistantToDelete := s.assistantToDelete) == s
  {
    s.(assistantToDelete := a)
  }

  /** Closing twice is closing once, and opening then closing only leaves the
      chosen mode behind. */
  lemma CloseModalLaws(s: UiState, mode: ModalMode, a: Option<Assistant>)
    ensures CloseModal(CloseModal(s)) == CloseModal(s)
    ensures CloseModal(OpenModal(s, mode, a)) == CloseModal(s).(modalMode := mode)
  {
  }

  /** The history after a sequence of messages is the old history followed by
      those messages, in order. */
  function AddAll(s: UiState, id: string, ms: seq<ChatMessage>): UiState
    decreases |ms|
  {
    if |ms| == 0 then s else AddAll(AddChatMessage(s, id, ms[0]), id, ms[1..])
  }

  lemma {:induction false} AddAllAppends(s: UiState, id: string, ms: seq<ChatMessage>)
    ensures History(AddAll(s, id, ms), id) == History(s, id) + ms
    decreases |ms|
  {
    if |ms| > 0 {
      AddAllAppends(AddChatMessage(s, id, ms[0]), id, ms[1..]);
      assert [ms[0]] + ms[1..] == ms;
    }
  }

  /** Clearing after any run of messages is the same as clearing straight away,
      and a message added after a clear is the whole history. */
  lemma ClearForgetsHistory(s: UiState, id: string, ms: seq<ChatMessage>, m: ChatMessage)
    ensures ClearChatHistory(AddAll(s, id, ms), id) == ClearChatHistory(s, id)
    ensures History(AddChatMessage(ClearChatHistory(s, id), id, m), id) == [m]
  {
    AddAllFrame(s, id, ms);
  }

  lemma {:induction false} AddAllFrame(s: UiState, id: string, ms: seq<ChatMessage>)
    ensures AddAll(s, id, ms).(chatHistory := s.chatHistory) == s
    ensures AddAll(s, id, ms).chatHistory[id := []] == s.chatHistory[id := []]
    decreases |ms|
  {
    if |ms| > 0 {
      var s1 := AddChatMessage(s, id, ms[0]);
      AddAllFrame(s1, id, ms[1..]);
      assert s1.chatHistory[id := []] == s.chatHistory[id := []];
    }
  }

  /** Histories of different assistants are independent: appends to two
      different ids commute. */
  lemma AddChatMessageCommutes(s: UiState, a: string, m: ChatMessage, b: string, n: ChatMessage)
    requires a != b
    ensures AddChatMessage(AddChatMessage(s, a, m), b, n) == AddChatMessage(AddChatMessage(s, b, n), a, m)
  {
  }
}
